=== FILE: README.md ===
# ZooKeeper registry reconciliation, modelled in Dafny

This project models the core of dubbo's ZooKeeper-backed service registry
(`ZookeeperRegistry`). The registry keeps a tree of nodes in line with what
providers and consumers ask for:

- Each service has a persistent node under a root namespace: `/<group>`, or `/`
  when there is no group.
- Each registered provider URL is a child node of its service node. It is
  ephemeral unless its protocol is `route`.
- Consumers list the providers of a service and watch for changes. Each change
  is filtered into the URL list a listener is notified of.
- A wildcard (`*`) subscription watches the root, so that every service seen
  there is subscribed to, once.

The model has six modules:

- `Results` holds Option and Result.
- `Urls` holds the URL record and the constants. URL parsing, printing, the
  segment codec, the service-name accessor and URL matching are uninterpreted
  function values in a `UrlLib`.
- `Paths` holds the root, service and provider paths and the path arithmetic.
- `NodeStore` is an in-memory coordination store. Its connection losses are
  scripted (`faults`), and so is a client that races to create the same node
  (`contenders`). A children watch (`watches`) fires once: creating or deleting
  a child of the watched path, or deleting the node itself, removes it.
- `Filtering` holds the decoding of child names and `toUrls`.
- `Registry` is the `ZookeeperRegistry` class. Calls into the failback base
  registry (`register`, `unregister`, `subscribe`, `notify`) are appended to a
  `log`. The base class's subscription table is a parameter of the watch
  callback.

Behaviour of the code that the model keeps on purpose:

- Child names are decoded twice: once by `getChildren` and again by `toUrls`.
  `Registry.RegisteredProviderIsListed` states that double decoding.
- `doUnregister` reports a missing provider node as an `RpcException`. It does
  not tolerate it, and the model follows the code.
- A `getChildren` that meets a missing node returns an empty list and arms no
  watch. `watch` and `doRetry` still drop that path from the failed set.
- When a watch fires with an empty listing, the callback returns early. Admin
  consumers therefore get no `empty://` notification from the callback.
- The set of known wildcard services (`anyServices`) never shrinks.
- Without a group, the wildcard service's provider path begins with `//`.

## Model

| member | source | states |
|---|---|---|
| Urls.BoolParameter | dubbo-registry-zookeeper/src/main/java/com/alibaba/dubbo/registry/zookeeper/ZookeeperRegistry.java:301 | a missing parameter yields the default; an explicit "true" reads as true and "false" as false (the `register`/`admin` flags) |
| Urls.DiscoveredUrl | dubbo-registry-zookeeper/src/main/java/com/alibaba/dubbo/registry/zookeeper/ZookeeperRegistry.java:297 | the derived subscription has the discovered service as path and `interface`, protocol and address unchanged, `check` and `register` reading false, every other parameter kept |
| Paths.LastIndexOf | dubbo-registry-zookeeper/src/main/java/com/alibaba/dubbo/registry/zookeeper/ZookeeperRegistry.java:196-199 | the index is -1 or a position of the separator, and no separator follows it |
| Paths.ChildLayout | dubbo-registry-zookeeper/src/main/java/com/alibaba/dubbo/registry/zookeeper/ZookeeperRegistry.java:358-362 | appending "/" + a segment to a valid path gives a valid path whose parent and last segment are the two parts |
| Paths.RootOf | dubbo-registry-zookeeper/src/main/java/com/alibaba/dubbo/registry/zookeeper/ZookeeperRegistry.java:80-86 | the root is empty exactly when the group is absent or empty; otherwise it is "/" followed by the group |
| Paths.RootPath | dubbo-registry-zookeeper/src/main/java/com/alibaba/dubbo/registry/zookeeper/ZookeeperRegistry.java:349-351 | the root path is "/" exactly when no root is configured, and is a valid path for a valid root |
| Paths.ServicePath | dubbo-registry-zookeeper/src/main/java/com/alibaba/dubbo/registry/zookeeper/ZookeeperRegistry.java:353-359 | the wildcard service maps to the root path; any other service to the child of the root path named by its encoded name |
| Paths.ProviderPath | dubbo-registry-zookeeper/src/main/java/com/alibaba/dubbo/registry/zookeeper/ZookeeperRegistry.java:361-363 | the provider path strictly extends the service path, and is its child named by the encoded full URL |
| Paths.ServicePathLayout | dubbo-registry-zookeeper/src/main/java/com/alibaba/dubbo/registry/zookeeper/ZookeeperRegistry.java:353-359 | a service node is a valid path whose parent is the root path and whose last segment is the encoded service name |
| Paths.ProviderPathLayout | dubbo-registry-zookeeper/src/main/java/com/alibaba/dubbo/registry/zookeeper/ZookeeperRegistry.java:361-363 | a provider node is a valid path whose parent is the service node and whose last segment is the encoded full URL |
| Paths.ServiceOfServicePath | dubbo-registry-zookeeper/src/main/java/com/alibaba/dubbo/registry/zookeeper/ZookeeperRegistry.java:194-205 | reading the service back from a service path (last segment, decoded) gives the service name when the codec round-trips it |
| Paths.WildcardProviderPathWithoutGroup | dubbo-registry-zookeeper/src/main/java/com/alibaba/dubbo/registry/zookeeper/ZookeeperRegistry.java:355-362 | with no group, the wildcard service's provider path begins with "//", so it is not a valid store path |
| NodeStore.Enumerate | dubbo-registry-zookeeper/src/main/java/com/alibaba/dubbo/registry/zookeeper/ZookeeperRegistry.java:318 | the child listing holds every child name exactly once |
| NodeStore.Store.Exists | dubbo-registry-zookeeper/src/main/java/com/alibaba/dubbo/registry/zookeeper/ZookeeperRegistry.java:251 | BadArguments exactly for an invalid path; for a valid one, a connection loss exactly when the fault script says so, else whether the node exists; nothing but the fault script changes, the watches included |
| NodeStore.Store.Create | dubbo-registry-zookeeper/src/main/java/com/alibaba/dubbo/registry/zookeeper/ZookeeperRegistry.java:253-255 | BadArguments exactly for an invalid path; a connection loss exactly when scripted; success adds exactly the new node under an existing parent; NodeExists means the path was taken, or that a racing client created it in its own mode; NoNode means the parent is missing; other failures change nothing; a node that appears, ours or the racing client's, fires the watch on its parent, and no other watch changes |
| NodeStore.Store.Delete | dubbo-registry-zookeeper/src/main/java/com/alibaba/dubbo/registry/zookeeper/ZookeeperRegistry.java:259 | BadArguments exactly for an invalid path or the root; a connection loss exactly when scripted; success removes exactly that node, which happens exactly when it exists and has no children, and fires the watches on the node and on its parent; no failure changes the tree or the watches |
| NodeStore.Store.GetChildren | dubbo-registry-zookeeper/src/main/java/com/alibaba/dubbo/registry/zookeeper/ZookeeperRegistry.java:318 | BadArguments exactly for an invalid path; a connection loss exactly when scripted; success lists each child name of an existing node once and arms a watch on it; a missing node is NoNode |
| Filtering.DecodeAll | dubbo-registry-zookeeper/src/main/java/com/alibaba/dubbo/registry/zookeeper/ZookeeperRegistry.java:322-325 | one decoded name per child name, in order |
| Filtering.MatchingProvidersAppend | dubbo-registry-zookeeper/src/main/java/com/alibaba/dubbo/registry/zookeeper/ZookeeperRegistry.java:368-376 | filtering a concatenation is the concatenation of the filtered parts, so input order is kept |
| Filtering.MatchingProvidersMembers | dubbo-registry-zookeeper/src/main/java/com/alibaba/dubbo/registry/zookeeper/ZookeeperRegistry.java:368-376 | a URL is among the matches exactly when some provider entry whose decoded text contains "://" and matches the consumer denotes it |
| Filtering.UrlsForMembers | dubbo-registry-zookeeper/src/main/java/com/alibaba/dubbo/registry/zookeeper/ZookeeperRegistry.java:365-382 | a URL is returned exactly when a kept provider denotes it, or, when nothing matched and the consumer is an admin, when it is the consumer with the `empty` protocol |
| Filtering.UrlsForEmpty | dubbo-registry-zookeeper/src/main/java/com/alibaba/dubbo/registry/zookeeper/ZookeeperRegistry.java:365-382 | the result is empty exactly when no provider entry is kept and the consumer is not an admin |
| Filtering.ToUrls | dubbo-registry-zookeeper/src/main/java/com/alibaba/dubbo/registry/zookeeper/ZookeeperRegistry.java:365-382 | the loop computes the specified URL list, with its proved properties |
| Registry.ModeFor | dubbo-registry-zookeeper/src/main/java/com/alibaba/dubbo/registry/zookeeper/ZookeeperRegistry.java:261 | a provider node is persistent exactly for the `route` protocol, ephemeral otherwise |
| Registry.DiscoveryComplete | dubbo-registry-zookeeper/src/main/java/com/alibaba/dubbo/registry/zookeeper/ZookeeperRegistry.java:176-191 | every listed, previously unknown service gets a subscribe call for every wildcard key and every listener under it |
| Registry.DiscoverySound | dubbo-registry-zookeeper/src/main/java/com/alibaba/dubbo/registry/zookeeper/ZookeeperRegistry.java:176-191 | every discovery call subscribes a listener of some wildcard key, for a listed service that was not known, with the URL derived from that key |
| Registry.RegisteredServiceIsDiscovered | dubbo-registry-zookeeper/src/main/java/com/alibaba/dubbo/registry/zookeeper/ZookeeperRegistry.java:250-253 | once a service node exists, listing the root yields the service name |
| Registry.RegisteredProviderIsListed | dubbo-registry-zookeeper/src/main/java/com/alibaba/dubbo/registry/zookeeper/ZookeeperRegistry.java:305-306 | once a provider node exists and matches the consumer, the consumer's URL list holds the URL parsed from the twice-decoded full string |
| Registry.ChildrenKept | dubbo-registry-zookeeper/src/main/java/com/alibaba/dubbo/registry/zookeeper/ZookeeperRegistry.java:257-263 | changing one node that is not a child of a path gives that path no new children, so a childless provider path stays childless while the service node is created |
| Registry.ZookeeperRegistry.constructor | dubbo-registry-zookeeper/src/main/java/com/alibaba/dubbo/registry/zookeeper/ZookeeperRegistry.java:75-86 | the root comes from the group; failed watches, known services, wildcard listeners and the call log start empty |
| Registry.ZookeeperRegistry.CreatePersistent | dubbo-registry-zookeeper/src/main/java/com/alibaba/dubbo/registry/zookeeper/ZookeeperRegistry.java:252-255 | only the given node may change; an existing one is untouched; a new one is persistent unless a racing client made it; NodeExists counts as success; with no connection loss and the parent present it succeeds; a connection loss fails it with nothing changed; success consumed no connection loss; the parent's watch fires exactly when the node appears, and no other watch changes |
| Registry.ZookeeperRegistry.EnsureNode | dubbo-registry-zookeeper/src/main/java/com/alibaba/dubbo/registry/zookeeper/ZookeeperRegistry.java:251-255 | only the given node may change; an existing one is untouched; success means it exists, and one it created is persistent; with no connection loss and the parent present it succeeds; a connection loss on the existence check fails it with nothing changed; success consumed no connection loss; the parent's watch fires exactly when the node appears, and no other watch changes |
| Registry.ZookeeperRegistry.EnsureRootNode | dubbo-registry-zookeeper/src/main/java/com/alibaba/dubbo/registry/zookeeper/ZookeeperRegistry.java:226-231 | an empty root does nothing; otherwise a missing root node is created persistently (unless a racing client created it first) and an existing one and every other node are left alone; with no connection loss and the parent present it succeeds; a connection loss on the first call fails it with nothing changed; success consumed no connection loss; the parent's watch fires exactly when the root node appears, and no other watch changes |
| Registry.ZookeeperRegistry.EnsureServiceNode | dubbo-registry-zookeeper/src/main/java/com/alibaba/dubbo/registry/zookeeper/ZookeeperRegistry.java:250-256 | only the service node may change; an existing one is untouched; one it creates is persistent; success means it exists; with no connection loss and the parent present it succeeds; a connection loss on the first call fails it with nothing changed; success consumed no connection loss; the root's watch fires exactly when the service node appears, and no other watch changes |
| Registry.ZookeeperRegistry.DeleteStale | dubbo-registry-zookeeper/src/main/java/com/alibaba/dubbo/registry/zookeeper/ZookeeperRegistry.java:257-260 | a successful call removes exactly the provider node if it was there, firing the watches on it and on its parent, and changes no other node and no other watch; a failure leaves the tree and the watches unchanged; with no connection loss and no children under the provider path it succeeds; a connection loss fails it |
| Registry.ZookeeperRegistry.CreateProvider | dubbo-registry-zookeeper/src/main/java/com/alibaba/dubbo/registry/zookeeper/ZookeeperRegistry.java:262-267 | only the provider node may change; success means a node created in the requested mode after the call began is there; with no connection loss, a free provider path and an existing parent it succeeds, also after a racing client took the path; a connection loss fails it with nothing changed, the watches included; only the watches on the provider node and its parent may fire, and success fires the parent's |
| Registry.ZookeeperRegistry.RecreateProvider | dubbo-registry-zookeeper/src/main/java/com/alibaba/dubbo/registry/zookeeper/ZookeeperRegistry.java:264-266 | after NodeExists, deletes the node and creates it again: only the provider node may change; success means a freshly created node in the requested mode; with no connection loss and a childless node under an existing parent it succeeds; only the watches on the provider node and its parent may fire, and success fires the parent's |
| Registry.ZookeeperRegistry.ReplaceProviderNode | dubbo-registry-zookeeper/src/main/java/com/alibaba/dubbo/registry/zookeeper/ZookeeperRegistry.java:257-267 | only the provider node may change; success means a node freshly created in the requested mode is there; with no connection loss, an existing parent and no children under the provider path it succeeds, also after a lost race; a connection loss on the first call fails it with nothing changed, the watches included; success consumed no connection loss; only the watches on the provider node and its parent may fire, and success fires the parent's |
| Registry.ZookeeperRegistry.RegisterNodes | dubbo-registry-zookeeper/src/main/java/com/alibaba/dubbo/registry/zookeeper/ZookeeperRegistry.java:250-267 | only the service and provider nodes change; an existing service node is untouched and a created one is persistent; success leaves a fresh provider node in the requested mode, different from any stale one; with no connection loss and a valid service/provider layout under an existing parent it succeeds; a connection loss on the first call fails it with nothing changed, the watches included; only the watches on the two nodes and their parents may fire, and success fires the provider's parent's |
| Registry.ZookeeperRegistry.DoRegister | dubbo-registry-zookeeper/src/main/java/com/alibaba/dubbo/registry/zookeeper/ZookeeperRegistry.java:248-271 | only the service and provider nodes change; an existing service node is untouched and a created one is persistent; success leaves the provider node fresh and in ModeFor(url), replacing any stale one; with no connection loss, a valid layout and the root node present it succeeds; a connection loss on the first store call is a registering RpcException with the tree and the watches unchanged; success consumed no connection loss; every failure is a registering RpcException for the URL; only the watches on the two nodes and their parents may fire, and for a valid layout success fires the service node's, so its consumers hear of the new provider |
| Registry.ZookeeperRegistry.DoUnregister | dubbo-registry-zookeeper/src/main/java/com/alibaba/dubbo/registry/zookeeper/ZookeeperRegistry.java:273-280 | succeeds exactly when no connection loss occurs and the provider node exists without children, and then removes exactly that node; success fires the watches on the node and on its parent; every other outcome, a null handle included, is an unregistering RpcException that changes neither the tree nor the watches; the zxid and the racing clients never change, and one fault entry is consumed exactly for a valid non-root provider path |
| Registry.ZookeeperRegistry.GetChildren | dubbo-registry-zookeeper/src/main/java/com/alibaba/dubbo/registry/zookeeper/ZookeeperRegistry.java:316-333 | success returns, one for one and in order, the decoded names of a listing holding every child name once; the watch set grows by the path exactly when it succeeds on an existing node; a missing node is an empty list; it throws exactly on a null handle, a scripted connection loss or an invalid path, with that cause; the tree is unchanged |
| Registry.ZookeeperRegistry.Watch | dubbo-registry-zookeeper/src/main/java/com/alibaba/dubbo/registry/zookeeper/ZookeeperRegistry.java:111-124 | the path ends up in the failed set exactly when the listing threw (null handle, a scripted connection loss, always for an invalid path), and then the result is empty; otherwise the decoded children are returned; the watch set grows by the path exactly when the listing succeeded on an existing node; no other failed path changes; the tree is unchanged |
| Registry.ZookeeperRegistry.RetryWatch | dubbo-registry-zookeeper/src/main/java/com/alibaba/dubbo/registry/zookeeper/ZookeeperRegistry.java:99-105 | fails exactly when the listing throws (null handle, a scripted connection loss, BadArguments for an invalid path), with that cause, keeping the failed set; otherwise removes the path; the watch set grows by the path exactly when it succeeded on an existing node; the tree is unchanged and one fault entry is consumed for a valid path |
| Registry.ZookeeperRegistry.RetryNext | dubbo-registry-zookeeper/src/main/java/com/alibaba/dubbo/registry/zookeeper/ZookeeperRegistry.java:99-106 | one loop step: the retried path joins the visit order and the retry invariant (failed set, causes, fault consumption, watches) is kept; the tree is unchanged |
| Registry.ZookeeperRegistry.DoRetry | dubbo-registry-zookeeper/src/main/java/com/alibaba/dubbo/registry/zookeeper/ZookeeperRegistry.java:90-109 | visits every snapshot path exactly once, in some order; the i-th path stays failed exactly when the handle is null, the path is invalid, or the fault script after the valid paths before it says connection loss; each failure carries its cause; the fault script loses one entry per valid path; the watch set gains exactly the recovered paths that exist; the tree is unchanged |
| Registry.DiscoveriesIndex | dubbo-registry-zookeeper/src/main/java/com/alibaba/dubbo/registry/zookeeper/ZookeeperRegistry.java:296-298 | the discovery calls for a listing are as many as the services, and the j-th subscribes the listener to the j-th service with the derived URL |
| Registry.ZookeeperRegistry.SubscribeServices | dubbo-registry-zookeeper/src/main/java/com/alibaba/dubbo/registry/zookeeper/ZookeeperRegistry.java:294-299 | the log grows by exactly the discovery calls: one subscribe per listed service, in listing order, with the derived URL |
| Registry.ZookeeperRegistry.AddServices | dubbo-registry-zookeeper/src/main/java/com/alibaba/dubbo/registry/zookeeper/ZookeeperRegistry.java:294-299 | a listing's services become known and the listener is subscribed to each, in order |
| Registry.ZookeeperRegistry.SubscribeAny | dubbo-registry-zookeeper/src/main/java/com/alibaba/dubbo/registry/zookeeper/ZookeeperRegistry.java:284-299 | the listener joins its wildcard key; it fails exactly when listing the root throws, with BadArguments for an invalid root path; the listed root children become known services; one subscribe per listed service, in order (`Discoveries`); the root's watch is armed exactly when the listing succeeds on an existing node; one fault entry is consumed exactly for a valid root path; the tree is unchanged |
| Registry.ZookeeperRegistry.DiscoverServices | dubbo-registry-zookeeper/src/main/java/com/alibaba/dubbo/registry/zookeeper/ZookeeperRegistry.java:292-299 | the root listing step of `SubscribeAny`: the same outcome, known-service, log, watch and fault-script guarantees, the wildcard listeners aside |
| Registry.ZookeeperRegistry.SubscribeService | dubbo-registry-zookeeper/src/main/java/com/alibaba/dubbo/registry/zookeeper/ZookeeperRegistry.java:300-310 | registers the consumer when its `register` flag is on; fails exactly when listing the service node throws, with BadArguments for an invalid path; on success notifies the listener of the filtered URLs when there are any; the service node's watch is armed exactly when the listing succeeds on an existing node; one fault entry is consumed exactly for a valid path; the tree is unchanged |
| Registry.ZookeeperRegistry.DoSubscribe | dubbo-registry-zookeeper/src/main/java/com/alibaba/dubbo/registry/zookeeper/ZookeeperRegistry.java:282-314 | dispatches on the wildcard with the two halves' exact effects; known services only grow; it fails, with a subscribing RpcException, exactly when the listing throws, carrying BadArguments for an invalid path; the tree is unchanged; the watch on the listed path is armed exactly when the listing succeeds on an existing node; one fault entry is consumed exactly for a valid path |
| Registry.ZookeeperRegistry.DoUnsubscribe | dubbo-registry-zookeeper/src/main/java/com/alibaba/dubbo/registry/zookeeper/ZookeeperRegistry.java:335-347 | removes the listener from a wildcard key when the key exists, otherwise records unregister exactly when the `register` flag is on |
| Registry.ZookeeperRegistry.SubscribeEach | dubbo-registry-zookeeper/src/main/java/com/alibaba/dubbo/registry/zookeeper/ZookeeperRegistry.java:187-189 | the new calls are one subscribe per listener, each made once |
| Registry.ZookeeperRegistry.NotifyEach | dubbo-registry-zookeeper/src/main/java/com/alibaba/dubbo/registry/zookeeper/ZookeeperRegistry.java:211-213 | the new calls are one notify per listener, each made once |
| Registry.ZookeeperRegistry.NotifySubscription | dubbo-registry-zookeeper/src/main/java/com/alibaba/dubbo/registry/zookeeper/ZookeeperRegistry.java:201-215 | a subscription for the fired service with a non-empty URL list notifies each of its listeners of that list, adding exactly one call per listener; any other makes no call |
| Registry.ZookeeperRegistry.SubscribeDiscovered | dubbo-registry-zookeeper/src/main/java/com/alibaba/dubbo/registry/zookeeper/ZookeeperRegistry.java:183-190 | the set of new calls is the subscribes of every wildcard key's listeners for the new service |
| Registry.ZookeeperRegistry.RootChildrenChanged | dubbo-registry-zookeeper/src/main/java/com/alibaba/dubbo/registry/zookeeper/ZookeeperRegistry.java:175-192 | listed services become known and the set of new calls is the discovery calls for the services not known before |
| Registry.ZookeeperRegistry.ServiceChildrenChanged | dubbo-registry-zookeeper/src/main/java/com/alibaba/dubbo/registry/zookeeper/ZookeeperRegistry.java:193-217 | the set of new calls is the notifies to every listener of every subscription for the fired path's service whose URL list is non-empty |
| Registry.ZookeeperRegistry.NotifySubscriptions | dubbo-registry-zookeeper/src/main/java/com/alibaba/dubbo/registry/zookeeper/ZookeeperRegistry.java:201-216 | the set of new calls is the notifies to every listener of every subscription for the given service whose URL list is non-empty |
| Registry.ZookeeperRegistry.Process | dubbo-registry-zookeeper/src/main/java/com/alibaba/dubbo/registry/zookeeper/ZookeeperRegistry.java:164-217 | other events and empty paths change nothing; otherwise the path is listed again and is failed exactly when that throws (always for an invalid path), else watched, and the watch set grows by nothing else; an empty listing issues no call; the root path runs discovery and any other path notifies its service's subscribers; known services only grow; the tree is unchanged |

## Left out

- Session lifecycle: `initZookeeper`, `createZookeeper` (except the root-node creation), the lock and the volatile handle. The handle is a constant that may be null, and `doRetry` does not reconnect first.
- The Expired and SyncConnected dispatch at the top of the watch callback (`initZookeeper`, `recover`), and the callback's outer catch-and-log.
- Concurrency: the concurrent maps and sets are plain maps and sets, and one operation runs at a time. The only race modelled is a concurrent create of the same node.
- Iteration order of Java sets and maps. For the set-driven loops, the contracts state the set of calls made, not their order.
- ACL and authentication, joining the backup address, session timeouts, `isAvailable`, `destroy` and logging.
- `URL.encode`, `URL.decode`, `URL.valueOf`, `toFullString`, `getServiceName` and `UrlUtils.isMatch` are not part of this model. They are uninterpreted, and no codec round-trip is proved; lemmas that need one take it as a hypothesis.
- The failback base registry (retry queues, `register`, `subscribe`, `notify` bookkeeping) is not part of this model. Its calls are recorded in the log.
- NodeStore.Store.Create: at most one racing creator per path is modelled. A contender is used up by the first create of its path, so the NodeExists of the second create in `doRegister`'s recovery branch cannot occur in the model.
- Registry.ZookeeperRegistry.DoRegister: on a failure other than a connection loss on its first store call, how much of the fault script was consumed is not stated.
- Watch delivery: the store records which paths have an armed children watch and removes a watch when it fires, but it does not queue the event. The watch callback `Process` takes the event as a parameter instead.
- ZooKeeper path rules beyond the `/`-separated structure (reserved names, length limits). Errors for ephemeral parents and node data are also not modelled.
- Urls.BoolParameter: `URL.getParameter`'s fallback to a `default.`-prefixed key is not modelled.
- Registry.ZookeeperRegistry.SubscribeDiscovered: the calls it adds to the log are stated as a set, so neither their number nor their order is promised. Two subscription keys may parse to the same URL, so the number of calls is not the size of that set.
- Registry.ZookeeperRegistry.RootChildrenChanged: the calls it adds to the log are stated as a set, so neither their number nor their order is promised. Two subscription keys may parse to the same URL, so the number of calls is not the size of that set.
- Registry.ZookeeperRegistry.NotifySubscriptions: the calls it adds to the log are stated as a set, so neither their number nor their order is promised. Two subscription keys may parse to the same URL, so the number of calls is not the size of that set.
- Registry.ZookeeperRegistry.ServiceChildrenChanged: the calls it adds to the log are stated as a set, so neither their number nor their order is promised. Two subscription keys may parse to the same URL, so the number of calls is not the size of that set.
- Registry.ZookeeperRegistry.Process: the calls it adds to the log are stated as a set, so neither their number nor their order is promised. Two subscription keys may parse to the same URL, so the number of calls is not the size of that set.
- `URL.decode` and `URL.valueOf` are modelled as total, but in dubbo either can throw (a malformed escape in a child name, or text such as "://x"). The paths lost are:
  - a throw in `getChildren` that puts the path into the failed set;
  - a throw in `doSubscribe` that becomes an `RpcException`;
  - a throw in the watch callback that stops its notify loop part-way.

=== FILE: filtering.dfy ===
/**
 * Decoding child names and turning a provider list into the URLs a consumer is notified
 * of (`getChildren`'s decoding loop and `toUrls`).
 */
module Filtering {
  import opened Urls

  /** Whether `sub` occurs in `s` (`String#contains`). */
  predicate Contains(s: string, sub: string)
    decreases |s|
  {
    |sub| <= |s| && (s[..|sub|] == sub || Contains(s[1..], sub))
  }

  /** Decodes every child name, keeping the order. */
  method DecodeAll(lib: UrlLib, list: seq<string>) returns (result: seq<string>)
    ensures |result| == |list|
    ensures forall i :: 0 <= i < |list| ==> result[i] == lib.decode(list[i])
  {
    result := [];
    for i := 0 to |list|
      invariant |result| == i
      invariant forall j :: 0 <= j < i ==> result[j] == lib.decode(list[j])
    {
      result := result + [lib.decode(list[i])];
    }
  }

  /** A provider entry is kept when its decoded text looks like a URL ("://") and the
      URL it denotes matches the consumer. */
  predicate Kept(lib: UrlLib, consumer: Url, provider: string)
  {
    Contains(lib.decode(provider), "://") && lib.isMatch(consumer, lib.valueOf(lib.decode(provider)))
  }

  /** The URLs of the kept providers, in input order. */
  function MatchingProviders(lib: UrlLib, consumer: Url, providers: seq<string>): seq<Url>
  {
    if providers == [] then []
    else
      (if Kept(lib, consumer, providers[0]) then [lib.valueOf(lib.decode(providers[0]))] else [])
      + MatchingProviders(lib, consumer, providers[1..])
  }

  /** What `toUrls` returns: the matching providers, or, when there are none and the
      consumer is an admin, the consumer itself with the `empty` protocol. */
  function UrlsFor(lib: UrlLib, consumer: Url, providers: seq<string>): seq<Url>
  {
    var urls := MatchingProviders(lib, consumer, providers);
    if urls == [] && BoolParameter(consumer, AdminKey, false) then [SetProtocol(consumer, EmptyProtocol)]
    else urls
  }

  /** Filtering a concatenation filters each part: the result keeps the input order. */
  lemma {:induction false} MatchingProvidersAppend(lib: UrlLib, consumer: Url, a: seq<string>, b: seq<string>)
    ensures MatchingProviders(lib, consumer, a + b) ==
            MatchingProviders(lib, consumer, a) + MatchingProviders(lib, consumer, b)
  {
    if a == [] {
      assert a + b == b;
    } else {
      assert (a + b)[1..] == a[1..] + b;
      MatchingProvidersAppend(lib, consumer, a[1..], b);
    }
  }

  /** A URL is among the matching providers exactly when some kept entry denotes it. */
  lemma {:induction false} MatchingProvidersMembers(lib: UrlLib, consumer: Url, providers: seq<string>, u: Url)
    ensures u in MatchingProviders(lib, consumer, providers) <==>
      exists i :: 0 <= i < |providers| && Kept(lib, consumer, providers[i]) && u == lib.valueOf(lib.decode(providers[i]))
  {
    if providers != [] {
      MatchingProvidersMembers(lib, consumer, providers[1..], u);
      if u in MatchingProviders(lib, consumer, providers[1..]) {
        var i :| 0 <= i < |providers[1..]| && Kept(lib, consumer, providers[1..][i]) &&
                 u == lib.valueOf(lib.decode(providers[1..][i]));
        assert providers[i + 1] == providers[1..][i];
      }
      if exists i :: 0 <= i < |providers| && Kept(lib, consumer, providers[i]) && u == lib.valueOf(lib.decode(providers[i])) {
        var i :| 0 <= i < |providers| && Kept(lib, consumer, providers[i]) && u == lib.valueOf(lib.decode(providers[i]));
        if i > 0 {
          assert providers[1..][i - 1] == providers[i];
        }
      }
    }
  }

  /**
   * `toUrls` in full: a URL is returned exactly when a kept provider denotes it, or when
   * no provider is kept, the consumer is an admin and the URL is the consumer with the
   * `empty` protocol.
   */
  lemma UrlsForMembers(lib: UrlLib, consumer: Url, providers: seq<string>, u: Url)
    ensures u in UrlsFor(lib, consumer, providers) <==>
      (exists i :: 0 <= i < |providers| && Kept(lib, consumer, providers[i]) && u == lib.valueOf(lib.decode(providers[i]))) ||
      (MatchingProviders(lib, consumer, providers) == [] && BoolParameter(consumer, AdminKey, false) &&
       u == SetProtocol(consumer, EmptyProtocol))
  {
    MatchingProvidersMembers(lib, consumer, providers, u);
  }

  /** `toUrls` returns nothing exactly when no provider is kept and the consumer is not an
      admin. */
  lemma UrlsForEmpty(lib: UrlLib, consumer: Url, providers: seq<string>)
    ensures UrlsFor(lib, consumer, providers) == [] <==>
      (forall i :: 0 <= i < |providers| ==> !Kept(lib, consumer, providers[i])) && !BoolParameter(consumer, AdminKey, false)
  {
    if MatchingProviders(lib, consumer, providers) != [] {
      var w := MatchingProviders(lib, consumer, providers)[0];
      MatchingProvidersMembers(lib, consumer, providers, w);
    } else {
      forall i | 0 <= i < |providers|
        ensures !Kept(lib, consumer, providers[i])
      {
        MatchingProvidersMembers(lib, consumer, providers, lib.valueOf(lib.decode(providers[i])));
      }
    }
  }

  /** `toUrls`: decodes each provider again, keeps the URL-shaped ones that match the
      consumer, and falls back to an `empty` consumer URL for admins. */
  method ToUrls(lib: UrlLib, consumer: Url, providers: seq<string>) returns (urls: seq<Url>)
    ensures urls == UrlsFor(lib, consumer, providers)
  {
    urls := [];
    for i := 0 to |providers|
      invariant urls == MatchingProviders(lib, consumer, providers[..i])
    {
      var provider := lib.decode(providers[i]);
      MatchingProvidersAppend(lib, consumer, providers[..i], [providers[i]]);
      assert providers[..i + 1] == providers[..i] + [providers[i]];
      if Contains(provider, "://") {
        var url := lib.valueOf(provider);
        if lib.isMatch(consumer, url) {
          urls := urls + [url];
        }
      }
    }
    assert providers[..|providers|] == providers;
    if urls == [] && BoolParameter(consumer, AdminKey, false) {
      urls := urls + [SetProtocol(consumer, EmptyProtocol)];
    }
  }

}

=== FILE: paths.dfy ===
/**
 * Node-path layout of the registry: the root namespace, the service node and the
 * provider node, together with the path arithmetic (parent, last segment) that the
 * coordination store and the watch callback apply to them.
 */
module Paths {
  import opened Results
  import opened Urls

  const Separator: char := '/'

  /** `String#lastIndexOf`: the position of the last `c` in `s`, or -1. */
  function LastIndexOf(s: string, c: char): (i: int)
    ensures -1 <= i < |s|
    ensures 0 <= i ==> s[i] == c
    ensures forall j :: i < j < |s| ==> s[j] != c
  {
    if s == [] then -1
    else if s[|s| - 1] == c then |s| - 1
    else LastIndexOf(s[..|s| - 1], c)
  }

  /** The text after the last separator (the whole path when there is none). */
  function LastSegment(p: string): string
  {
    p[LastIndexOf(p, Separator) + 1..]
  }

  /** The path of the parent node; the namespace root "/" for a top-level node. */
  function Parent(p: string): string
  {
    var i := LastIndexOf(p, Separator);
    if i <= 0 then "/" else p[..i]
  }

  /** One path segment: non-empty and free of separators. */
  predicate ValidSegment(s: string)
  {
    s != [] && Separator !in s
  }

  /** An absolute path as the store accepts it: "/" or segments each preceded by "/". */
  predicate ValidPath(p: string)
  {
    p == "/" ||
    (|p| >= 2 && p[0] == Separator && p[|p| - 1] != Separator &&
     forall i :: 0 <= i < |p| - 1 && p[i] == Separator ==> p[i + 1] != Separator)
  }

  /** The parent of a path other than "/" is a shorter path, so never the path itself. */
  lemma ParentShorter(p: string)
    requires ValidPath(p) && p != "/"
    ensures |Parent(p)| < |p|
  {
  }

  /** How many of `paths` the store accepts as paths. */
  function ValidCount(paths: seq<string>): (n: nat)
    ensures n <= |paths|
    ensures n == 0 <==> forall i :: 0 <= i < |paths| ==> !ValidPath(paths[i])
    ensures n == |paths| <==> forall i :: 0 <= i < |paths| ==> ValidPath(paths[i])
  {
    if paths == [] then 0
    else ValidCount(paths[..|paths| - 1]) + (if ValidPath(paths[|paths| - 1]) then 1 else 0)
  }

  /** Counting one more path. */
  lemma ValidCountAppend(paths: seq<string>, p: string)
    ensures ValidCount(paths + [p]) == ValidCount(paths) + (if ValidPath(p) then 1 else 0)
  {
  }

  /** The configured root: empty, or a valid path other than "/". */
  predicate ValidRoot(root: string)
  {
    root == "" || (root != "/" && ValidPath(root))
  }

  /** The path of the child `name` of the node at `parent`. */
  function Child(parent: string, name: string): string
  {
    if parent == "/" then "/" + name else parent + "/" + name
  }

  /** A child of a valid path by a valid segment is a valid path whose parent and last
      segment give back the two parts. */
  lemma ChildLayout(parent: string, name: string)
    requires ValidPath(parent) && ValidSegment(name)
    ensures ValidPath(Child(parent, name))
    ensures Parent(Child(parent, name)) == parent
    ensures LastSegment(Child(parent, name)) == name
  {
    var p := Child(parent, name);
    var k := |p| - |name| - 1;
    assert p[k] == Separator && p[k + 1..] == name;
    assert forall j :: k < j < |p| ==> p[j] == name[j - k - 1];
    assert LastIndexOf(p, Separator) == k;
  }

  /**
   * The root computed in the constructor from the `group` parameter: "/" + group for a
   * non-empty group, else the empty string.
   */
  function RootOf(group: Option<string>): (root: string)
    ensures root == "" <==> (group == None || group == Some(""))
    ensures root != "" ==> root[0] == Separator && root[1..] == group.value
    ensures group.Some? && ValidPath("/" + group.value) && group.value != "" ==> ValidRoot(root)
  {
    if group.Some? && |group.value| > 0 then "/" + group.value else ""
  }

  /** `toRootPath`: the node whose children are the services. */
  function RootPath(root: string): (p: string)
    ensures ValidRoot(root) ==> ValidPath(p)
    ensures p == "/" <==> root == "" || root == "/"
  {
    if root == "" then "/" else root
  }

  /** `toServicePath`: the wildcard service maps to the root path, every other
      service to a child of it named by the encoded service name. */
  function ServicePath(lib: UrlLib, root: string, url: Url): (p: string)
    ensures lib.serviceName(url) == AnyValue ==> p == RootPath(root)
    ensures ValidRoot(root) && lib.serviceName(url) != AnyValue ==>
      p == Child(RootPath(root), lib.encode(lib.serviceName(url)))
  {
    var name := lib.serviceName(url);
    if name == AnyValue then RootPath(root) else root + [Separator] + lib.encode(name)
  }

  /** `toProviderPath`: a child of the service path named by the encoded full URL. */
  function ProviderPath(lib: UrlLib, root: string, url: Url): (p: string)
    ensures |p| > |ServicePath(lib, root, url)| && p[..|ServicePath(lib, root, url)|] == ServicePath(lib, root, url)
    ensures ServicePath(lib, root, url) != "/" ==>
      p == Child(ServicePath(lib, root, url), lib.encode(lib.fullString(url)))
  {
    ServicePath(lib, root, url) + [Separator] + lib.encode(lib.fullString(url))
  }

  /** A service node is a child of the root path, named by the encoded service name. */
  lemma ServicePathLayout(lib: UrlLib, root: string, url: Url)
    requires ValidRoot(root) && lib.serviceName(url) != AnyValue
    requires ValidSegment(lib.encode(lib.serviceName(url)))
    ensures ValidPath(ServicePath(lib, root, url))
    ensures Parent(ServicePath(lib, root, url)) == RootPath(root)
    ensures LastSegment(ServicePath(lib, root, url)) == lib.encode(lib.serviceName(url))
  {
    ChildLayout(RootPath(root), lib.encode(lib.serviceName(url)));
  }

  /** A provider node is a child of its service node, named by the encoded full URL. */
  lemma ProviderPathLayout(lib: UrlLib, root: string, url: Url)
    requires ServicePath(lib, root, url) != "/" && ValidPath(ServicePath(lib, root, url))
    requires ValidSegment(lib.encode(lib.fullString(url)))
    ensures ValidPath(ProviderPath(lib, root, url))
    ensures Parent(ProviderPath(lib, root, url)) == ServicePath(lib, root, url)
    ensures LastSegment(ProviderPath(lib, root, url)) == lib.encode(lib.fullString(url))
  {
    ChildLayout(ServicePath(lib, root, url), lib.encode(lib.fullString(url)));
  }

  /** The decoded service name the watch callback reads off a fired path. */
  function ServiceOfPath(lib: UrlLib, path: string): string
  {
    lib.decode(LastSegment(path))
  }

  /**
   * The service branch of the watch callback finds the subscription that owns a service
   * path: reading the name back from the path gives the service name, provided that the
   * codec round-trips it and its encoding is one path segment.
   */
  lemma ServiceOfServicePath(lib: UrlLib, root: string, url: Url)
    requires ValidRoot(root) && lib.serviceName(url) != AnyValue
    requires ValidSegment(lib.encode(lib.serviceName(url)))
    requires lib.decode(lib.encode(lib.serviceName(url))) == lib.serviceName(url)
    ensures ServiceOfPath(lib, ServicePath(lib, root, url)) == lib.serviceName(url)
  {
    ServicePathLayout(lib, root, url);
  }

  /**
   * With no group, the wildcard service's provider path starts with "//", which is not a
   * path the store accepts.
   */
  lemma WildcardProviderPathWithoutGroup(lib: UrlLib, url: Url)
    requires lib.serviceName(url) == AnyValue
    ensures ProviderPath(lib, "", url)[..2] == "//"
    ensures !ValidPath(ProviderPath(lib, "", url))
  {
    var p := ProviderPath(lib, "", url);
    assert p[0] == Separator && p[1] == Separator;
  }

}

=== FILE: registry.dfy ===
/**
 * The reconciliation engine of the ZooKeeper-backed registry: registration of provider
 * nodes, watch bookkeeping with retry, wildcard ("*") service discovery and change
 * notification, run against the in-memory node store.
 *
 * Calls into the failback base registry (`register`, `unregister`, `subscribe`,
 * `notify`) are recorded, in order, in `log`; its subscription table
 * (`getSubscribed()`) is passed to the watch callback as a parameter.
 */
module Registry {
  import opened Results
  import opened Urls
  import opened Paths
  import opened NodeStore
  import opened Filtering

  /** A notification listener, by identity. */
  datatype Listener = Listener(id: nat)

  /** A call into the failback base registry. */
  datatype Call =
    | Register(url: Url)
    | Unregister(url: Url)
    | Subscribe(url: Url, listener: Listener)
    | Notify(url: Url, listener: Listener, urls: seq<Url>)

  datatype Operation = Registering | Unregistering | Subscribing

  /** Why a store call failed: the store said so, or there was no session handle. */
  datatype Cause = Keeper(error: KeeperError) | NullHandle

  /** The `RpcException` the registry throws: which operation, for which URL, and why. */
  datatype RpcException = RpcException(op: Operation, url: Url, cause: Cause)

  datatype EventType = NoneType | NodeCreated | NodeDeleted | NodeDataChanged | NodeChildrenChanged

  /** A watch event; its path may be null. */
  datatype Event = Event(eventType: EventType, path: Option<string>)

  predicate IsWildcard(lib: UrlLib, url: Url)
  {
    lib.serviceName(url) == AnyValue
  }

  /** Providers of the `route` protocol outlive the session; all others are ephemeral. */
  function ModeFor(url: Url): (m: Mode)
    ensures m == Persistent <==> url.protocol == RouteProtocol
  {
    if url.protocol == RouteProtocol then Persistent else Ephemeral
  }

  /** A watch event the callback acts on: children changed, on a non-empty path. */
  predicate Relevant(event: Event)
  {
    event.eventType == NodeChildrenChanged && event.path.Some? && event.path.value != ""
  }

  /** `children` decodes `names` one for one, in order. */
  ghost predicate DecodedFrom(lib: UrlLib, names: seq<string>, children: seq<string>)
  {
    |children| == |names| && forall i :: 0 <= i < |names| ==> children[i] == lib.decode(names[i])
  }

  /** `children` is what `getChildren(path)` returns on success: nothing for a missing
      node, else the decoded names, one for one, of a listing that holds every child name
      of the node exactly once. */
  ghost predicate Listed(lib: UrlLib, nodes: map<string, Node>, path: string, children: seq<string>)
  {
    (path !in nodes ==> children == []) &&
    (path in nodes ==> exists names :: ListingOf(lib, nodes, path, names, children))
  }

  /** `names` holds every child name of the node at `path` exactly once, and `children`
      decodes them one for one. */
  ghost predicate ListingOf(lib: UrlLib, nodes: map<string, Node>, path: string, names: seq<string>, children: seq<string>)
  {
    |names| == |ChildNames(nodes, path)| && (forall c :: c in names <==> c in ChildNames(nodes, path)) &&
    DecodedFrom(lib, names, children)
  }

  /** The paths of the snapshot `failed`, retried so far (not in `todo`), whose listing
      succeeded (not in `failures`) and whose node exists: the watches the pass has armed. */
  ghost function Rearmed(failed: set<string>, todo: set<string>, failures: map<string, Cause>,
                         nodes: map<string, Node>): set<string>
  {
    set p | p in failed - todo && p !in failures && p in nodes
  }

  /** Retrying `s` arms its watch exactly when it succeeded and its node exists. */
  lemma RearmedStep(failed: set<string>, todo: set<string>, failures: map<string, Cause>,
                    next: map<string, Cause>, nodes: map<string, Node>, s: string, ok: bool, cause: Cause,
                    watches0: set<string>, watches: set<string>, nextWatches: set<string>)
    requires s in todo && todo <= failed && s !in failures
    requires next == if ok then failures else failures[s := cause]
    requires watches == watches0 + Rearmed(failed, todo, failures, nodes)
    requires nextWatches == if ok && s in nodes then watches + {s} else watches
    ensures nextWatches == watches0 + Rearmed(failed, todo - {s}, next, nodes)
  {
  }

  /**
   * How far the failed-watch pass has got through the snapshot `failed`, in values:
   * `order` holds the paths retried so far, each once, `todo` the rest, and `now` is the
   * failed set. A retried path is still failed exactly when there is no handle, the store
   * rejects it, or the fault script (`faults0` after the listings so far) loses the
   * connection; `failures` holds those paths. With a handle, the script has lost one
   * entry per valid path retried and the watch is armed on every existing path that
   * left the failed set.
   */
  ghost predicate PassState(handle: bool, faults0: seq<bool>, watches0: set<string>, failed: set<string>,
                            todo: set<string>, failures: map<string, Cause>, order: seq<string>,
                            now: set<string>, faults: seq<bool>, watches: set<string>, nodes: map<string, Node>)
  {
    todo <= failed && failures.Keys <= failed &&
    (set p | p in order) == failed - todo && NoDuplicates(order) &&
    now == todo + failures.Keys && todo !! failures.Keys &&
    Outcomes(handle, faults0, order, now) &&
    (!handle ==> now == failed) &&
    (handle ==> faults == Drop(faults0, ValidCount(order)) && watches == watches0 + Rearmed(failed, todo, failures, nodes))
  }

  ghost predicate NoDuplicates(order: seq<string>)
  {
    forall i, j :: 0 <= i < j < |order| ==> order[i] != order[j]
  }

  /** Each path of `order` is in `now` exactly when its retry failed: there was no
      handle, the store rejects the path, or the fault script as it stood when that
      path was listed loses the connection. */
  ghost predicate Outcomes(handle: bool, faults0: seq<bool>, order: seq<string>, now: set<string>)
  {
    forall i :: 0 <= i < |order| ==>
      (order[i] in now <==> !handle || !ValidPath(order[i]) || FaultNext(Drop(faults0, ValidCount(order[..i]))))
  }

  /** Retrying `s`, which succeeds exactly when there is a handle, the path is valid and
      the next store call does not lose the connection, advances the pass by one path. */
  lemma PassStep(handle: bool, faults0: seq<bool>, watches0: set<string>, failed: set<string>,
                 todo: set<string>, failures: map<string, Cause>, order: seq<string>,
                 now: set<string>, faults: seq<bool>, watches: set<string>, nodes: map<string, Node>,
                 s: string, ok: bool, cause: Cause, next: map<string, Cause>,
                 nextNow: set<string>, nextFaults: seq<bool>, nextWatches: set<string>)
    requires PassState(handle, faults0, watches0, failed, todo, failures, order, now, faults, watches, nodes)
    requires s in todo
    requires ok <==> handle && ValidPath(s) && !FaultNext(faults)
    requires next == if ok then failures else failures[s := cause]
    requires nextNow == if ok then now - {s} else now
    requires handle ==> nextFaults == if ValidPath(s) then Rest(faults) else faults
    requires handle ==> nextWatches == if ok && s in nodes then watches + {s} else watches
    ensures PassState(handle, faults0, watches0, failed, todo - {s}, next, order + [s], nextNow, nextFaults, nextWatches, nodes)
  {
    SnapshotStep(failed, todo, order, s);
    FailedStep(handle, faults0, order, now, faults, s, ok, nextNow);
    FailedSetStep(failed, todo, failures, now, s, ok, cause, next, nextNow);
    if handle {
      DropStep(faults0, order, s);
      RearmedStep(failed, todo, failures, next, nodes, s, ok, cause, watches0, watches, nextWatches);
    }
  }

  /** Retrying `s` consumes one more entry of the fault script exactly when `s` is valid. */
  lemma DropStep(faults0: seq<bool>, order: seq<string>, s: string)
    ensures Drop(faults0, ValidCount(order + [s])) ==
      if ValidPath(s) then Rest(Drop(faults0, ValidCount(order))) else Drop(faults0, ValidCount(order))
  {
  }

  /** The failed set after the retry of `s`: still the untried paths plus the failures. */
  lemma FailedSetStep(failed: set<string>, todo: set<string>, failures: map<string, Cause>, now: set<string>,
                      s: string, ok: bool, cause: Cause, next: map<string, Cause>, nextNow: set<string>)
    requires todo <= failed && failures.Keys <= failed && s in todo
    requires now == todo + failures.Keys && todo !! failures.Keys
    requires next == if ok then failures else failures[s := cause]
    requires nextNow == if ok then now - {s} else now
    ensures next.Keys <= failed && nextNow == (todo - {s}) + next.Keys && (todo - {s}) !! next.Keys
  {
  }

  /** Moving `s` from `todo` to the end of `order` keeps `order` a duplicate-free listing
      of the retried part of the snapshot. */
  lemma SnapshotStep(failed: set<string>, todo: set<string>, order: seq<string>, s: string)
    requires todo <= failed && s in todo
    requires (set p | p in order) == failed - todo && NoDuplicates(order)
    ensures (set p | p in order + [s]) == failed - (todo - {s}) && NoDuplicates(order + [s])
  {
    assert (set p | p in order + [s]) == (set p | p in order) + {s};
    assert s !in order;
  }

  /** The per-path outcome of the pass, extended by the retry of `s`. */
  lemma FailedStep(handle: bool, faults0: seq<bool>, order: seq<string>, now: set<string>, faults: seq<bool>,
                   s: string, ok: bool, nextNow: set<string>)
    requires Outcomes(handle, faults0, order, now)
    requires s !in order && s in now
    requires handle ==> faults == Drop(faults0, ValidCount(order))
    requires ok <==> handle && ValidPath(s) && !FaultNext(faults)
    requires nextNow == if ok then now - {s} else now
    ensures Outcomes(handle, faults0, order + [s], nextNow)
  {
    var o := order + [s];
    forall i | 0 <= i < |order|
      ensures o[..i] == order[..i]
    {
    }
    assert o[..|order|] == order;
  }

  ghost predicate Extends(a: seq<Call>, b: seq<Call>)
  {
    |a| <= |b| && b[..|a|] == a
  }

  /** The calls appended to log `a` to give log `b`. */
  ghost function NewCalls(a: seq<Call>, b: seq<Call>): set<Call>
    requires Extends(a, b)
  {
    set c | c in b[|a|..]
  }

  lemma NewCallsTrans(a: seq<Call>, b: seq<Call>, c: seq<Call>)
    requires Extends(a, b) && Extends(b, c)
    ensures Extends(a, c)
    ensures NewCalls(a, c) == NewCalls(a, b) + NewCalls(b, c)
  {
  }

  lemma NewCallsAppend(a: seq<Call>, b: seq<Call>, x: Call)
    requires Extends(a, b)
    ensures Extends(a, b + [x])
    ensures NewCalls(a, b + [x]) == NewCalls(a, b) + {x}
  {
    assert (b + [x])[..|a|] == b[..|a|];
    assert (b + [x])[|a|..] == b[|a|..] + [x];
  }

  lemma SameExceptWiden(a: map<string, Node>, b: map<string, Node>, paths: set<string>, wider: set<string>)
    requires SameExcept(a, b, paths) && paths <= wider
    ensures SameExcept(a, b, wider)
  {
  }

  lemma SameExceptTrans(a: map<string, Node>, b: map<string, Node>, c: map<string, Node>, p: set<string>, q: set<string>)
    requires SameExcept(a, b, p) && SameExcept(b, c, q)
    ensures SameExcept(a, c, p + q)
  {
  }

  /** Changing one node, which is not a child of `p`, adds no children to `p`. */
  lemma ChildrenKept(after: map<string, Node>, before: map<string, Node>, changed: string, p: string)
    requires SameExcept(after, before, {changed})
    requires changed == "/" || Parent(changed) != p
    ensures HasChildren(after, p) ==> HasChildren(before, p)
  {
  }

  /** The subscribe calls a root watch fire issues for one new service: one per wildcard
      key in `keys` and listener under it. */
  ghost function KeySubscribes(lib: UrlLib, keys: set<string>, any: map<string, set<Listener>>, service: string): set<Call>
  {
    set k, l | k in keys && k in any && l in any[k] :: Subscribe(DiscoveredUrl(lib.valueOf(k), service), l)
  }

  /** The subscribe calls a root watch fire issues for the listed services, given the
      services already known: each service is handled once, the first time it is seen. */
  ghost function DiscoveryCalls(lib: UrlLib, services: seq<string>, known: set<string>, any: map<string, set<Listener>>): set<Call>
  {
    if services == [] then {}
    else
      (if services[0] in known then {} else KeySubscribes(lib, any.Keys, any, services[0]))
      + DiscoveryCalls(lib, services[1..], known + {services[0]}, any)
  }

  /** Handling the `i`-th listed service, which issues `more`, keeps the calls issued so far
      plus those still to come equal to the calls of the whole listing. */
  lemma DiscoveryAdvance(lib: UrlLib, services: seq<string>, i: nat, known0: set<string>, known: set<string>,
                         any: map<string, set<Listener>>, done: set<Call>, more: set<Call>)
    requires i < |services|
    requires done + DiscoveryCalls(lib, services[i..], known, any) == DiscoveryCalls(lib, services, known0, any)
    requires more == if services[i] in known then {} else KeySubscribes(lib, any.Keys, any, services[i])
    ensures (done + more) + DiscoveryCalls(lib, services[i + 1..], known + {services[i]}, any) ==
      DiscoveryCalls(lib, services, known0, any)
  {
  }

  /** The services of a listing prefix grow by one element at a time. */
  lemma ListedStep(services: seq<string>, i: nat, j: nat)
    requires i < |services| && j == i + 1
    ensures (set s | s in services[..j]) == (set s | s in services[..i]) + {services[i]}
  {
    assert services[..j] == services[..i] + [services[i]];
  }

  /** The notifications a service watch fire sends for the subscriptions in `keys`: one per
      listener of every subscription for `service` whose filtered list is non-empty. */
  ghost function ChangeCalls(lib: UrlLib, keys: set<string>, subscribed: map<string, set<Listener>>,
                             service: string, providers: seq<string>): set<Call>
  {
    set k, l | k in keys && k in subscribed && l in subscribed[k] &&
               lib.serviceName(lib.valueOf(k)) == service && UrlsFor(lib, lib.valueOf(k), providers) != [] ::
      Notify(lib.valueOf(k), l, UrlsFor(lib, lib.valueOf(k), providers))
  }

  /** The subscribe calls for a root listing: one per listed service, in listing order,
      each with `url` rewritten to that service. */
  function Discoveries(url: Url, services: seq<string>, listener: Listener): seq<Call>
  {
    if services == [] then []
    else Discoveries(url, services[..|services| - 1], listener) +
         [Subscribe(DiscoveredUrl(url, services[|services| - 1]), listener)]
  }

  /** The `j`-th discovery call subscribes the listener to the `j`-th listed service. */
  lemma {:induction false} DiscoveriesIndex(url: Url, services: seq<string>, listener: Listener)
    ensures |Discoveries(url, services, listener)| == |services|
    ensures forall j :: 0 <= j < |services| ==>
      Discoveries(url, services, listener)[j] == Subscribe(DiscoveredUrl(url, services[j]), listener)
  {
    if services != [] {
      var init := services[..|services| - 1];
      DiscoveriesIndex(url, init, listener);
      forall j | 0 <= j < |services| - 1
        ensures Discoveries(url, services, listener)[j] == Subscribe(DiscoveredUrl(url, services[j]), listener)
      {
        assert init[j] == services[j];
      }
    }
  }

  /** One subscribe call with `url` per listener. */
  ghost function Subscribes(url: Url, listeners: set<Listener>): set<Call>
  {
    set l | l in listeners :: Subscribe(url, l)
  }

  /** One notify call of `urls` for the subscription `url` per listener. */
  ghost function Notifies(url: Url, listeners: set<Listener>, urls: seq<Url>): set<Call>
  {
    set l | l in listeners :: Notify(url, l, urls)
  }

  lemma SubscribesAdd(url: Url, listeners: set<Listener>, l: Listener)
    ensures Subscribes(url, listeners + {l}) == Subscribes(url, listeners) + {Subscribe(url, l)}
  {
  }

  lemma NotifiesAdd(url: Url, listeners: set<Listener>, urls: seq<Url>, l: Listener)
    ensures Notifies(url, listeners + {l}, urls) == Notifies(url, listeners, urls) + {Notify(url, l, urls)}
  {
  }

  lemma KeySubscribesAdd(lib: UrlLib, done: set<string>, key: string, any: map<string, set<Listener>>, service: string)
    requires key in any
    ensures KeySubscribes(lib, done + {key}, any, service) ==
            KeySubscribes(lib, done, any, service) +
            Subscribes(DiscoveredUrl(lib.valueOf(key), service), any[key])
  {
  }

  /** Logging the subscribe calls of one more key extends the key-by-key call set. */
  lemma KeySubscribesStep(lib: UrlLib, start: seq<Call>, before: seq<Call>, after: seq<Call>, done: set<string>,
                          key: string, any: map<string, set<Listener>>, service: string)
    requires key in any
    requires Extends(start, before) && NewCalls(start, before) == KeySubscribes(lib, done, any, service)
    requires Extends(before, after) && NewCalls(before, after) == Subscribes(DiscoveredUrl(lib.valueOf(key), service), any[key])
    ensures Extends(start, after) && NewCalls(start, after) == KeySubscribes(lib, done + {key}, any, service)
  {
    NewCallsTrans(start, before, after);
    KeySubscribesAdd(lib, done, key, any, service);
  }

  lemma ChangeCallsAdd(lib: UrlLib, done: set<string>, key: string, subscribed: map<string, set<Listener>>,
                       service: string, providers: seq<string>)
    requires key in subscribed
    ensures ChangeCalls(lib, done + {key}, subscribed, service, providers) ==
            ChangeCalls(lib, done, subscribed, service, providers) +
            (if lib.serviceName(lib.valueOf(key)) == service && UrlsFor(lib, lib.valueOf(key), providers) != []
             then Notifies(lib.valueOf(key), subscribed[key], UrlsFor(lib, lib.valueOf(key), providers))
             else {})
  {
  }

  /** Every (new service, wildcard key, listener) triple gets its subscribe call. */
  lemma {:induction false} DiscoveryComplete(lib: UrlLib, services: seq<string>, known: set<string>,
                                             any: map<string, set<Listener>>, i: nat, k: string, l: Listener)
    requires i < |services| && services[i] !in known && k in any && l in any[k]
    ensures Subscribe(DiscoveredUrl(lib.valueOf(k), services[i]), l) in DiscoveryCalls(lib, services, known, any)
  {
    if i == 0 || services[0] == services[i] {
      assert Subscribe(DiscoveredUrl(lib.valueOf(k), services[i]), l) in KeySubscribes(lib, any.Keys, any, services[0]);
    } else {
      assert services[1..][i - 1] == services[i];
      DiscoveryComplete(lib, services[1..], known + {services[0]}, any, i - 1, k, l);
    }
  }

  /** Every discovery call subscribes, for a listed service that was not known, a listener
      of some wildcard key, with the URL derived from that key. */
  lemma {:induction false} DiscoverySound(lib: UrlLib, services: seq<string>, known: set<string>,
                                          any: map<string, set<Listener>>, c: Call)
    requires c in DiscoveryCalls(lib, services, known, any)
    ensures c.Subscribe? && c.url.path in services && c.url.path !in known
    ensures exists k :: k in any && c.listener in any[k] && c.url == DiscoveredUrl(lib.valueOf(k), c.url.path)
  {
    if c in DiscoveryCalls(lib, services[1..], known + {services[0]}, any) {
      DiscoverySound(lib, services[1..], known + {services[0]}, any, c);
    } else {
      var k, l :| k in any && l in any[k] && c == Subscribe(DiscoveredUrl(lib.valueOf(k), services[0]), l);
    }
  }

  /** A registered service is visible to the wildcard mechanism: its encoded name is a
      child of the root path, so a root listing yields its decoded name. */
  lemma RegisteredServiceIsDiscovered(lib: UrlLib, root: string, url: Url, nodes: map<string, Node>, children: seq<string>)
    requires ValidRoot(root) && !IsWildcard(lib, url)
    requires ValidSegment(lib.encode(lib.serviceName(url)))
    requires lib.decode(lib.encode(lib.serviceName(url))) == lib.serviceName(url)
    requires ServicePath(lib, root, url) in nodes
    requires Listed(lib, nodes, RootPath(root), children)
    requires RootPath(root) in nodes
    ensures lib.serviceName(url) in children
  {
    ServicePathLayout(lib, root, url);
    var sp := ServicePath(lib, root, url);
    assert sp != "/";
    assert LastSegment(sp) in ChildNames(nodes, RootPath(root));
    var names :| ListingOf(lib, nodes, RootPath(root), names, children);
    var i :| 0 <= i < |names| && names[i] == LastSegment(sp);
    assert children[i] == lib.serviceName(url);
  }

  /**
   * A registered provider reaches a matching consumer: once the provider node is listed
   * under its service node, the consumer's URL list holds the provider. The child name is
   * decoded twice (by `getChildren` and again by `toUrls`), so the URL is parsed from the
   * decoded full string.
   */
  lemma RegisteredProviderIsListed(lib: UrlLib, root: string, url: Url, consumer: Url,
                                   nodes: map<string, Node>, children: seq<string>)
    requires ServicePath(lib, root, url) != "/" && ValidPath(ServicePath(lib, root, url))
    requires ValidSegment(lib.encode(lib.fullString(url)))
    requires lib.decode(lib.encode(lib.fullString(url))) == lib.fullString(url)
    requires ProviderPath(lib, root, url) in nodes
    requires Listed(lib, nodes, ServicePath(lib, root, url), children)
    requires ServicePath(lib, root, url) in nodes
    requires Kept(lib, consumer, lib.fullString(url))
    ensures lib.valueOf(lib.decode(lib.fullString(url))) in UrlsFor(lib, consumer, children)
  {
    ProviderPathLayout(lib, root, url);
    var pp := ProviderPath(lib, root, url);
    assert pp != "/";
    assert LastSegment(pp) in ChildNames(nodes, ServicePath(lib, root, url));
    var full := lib.fullString(url);
    var names :| ListingOf(lib, nodes, ServicePath(lib, root, url), names, children);
    var i :| 0 <= i < |names| && names[i] == LastSegment(pp);
    assert children[i] == full;
    UrlsForMembers(lib, consumer, children, lib.valueOf(lib.decode(full)));
  }

  class ZookeeperRegistry {
    const lib: UrlLib
    /** "/" + group, or "" without a group. */
    const root: string
    /** The session handle; null before a session exists. */
    const zk: Store?
    /** Paths whose watch could not be (re-)armed. */
    var failedWatched: set<string>
    /** Services the wildcard mechanism has seen; it only grows. */
    var anyServices: set<string>
    /** Listeners of each wildcard subscription, by the subscription's full string. */
    var anyNotifyListeners: map<string, set<Listener>>
    /** Calls made into the failback base registry. */
    var log: seq<Call>

    ghost predicate Valid()
      reads this, zk
    {
      zk != null ==> zk.Valid()
    }

    /** The only way a listing of `path` can throw: no session handle, a connection loss,
        or a path the store rejects. */
    function FailureOf(path: string): Cause
    {
      if zk == null then NullHandle
      else Keeper(if ValidPath(path) then ConnectionLoss else BadArguments)
    }

    constructor (lib: UrlLib, group: Option<string>, zk: Store?)
      requires zk != null ==> zk.Valid()
      ensures Valid()
      ensures this.lib == lib && root == RootOf(group) && this.zk == zk
      ensures failedWatched == {} && anyServices == {} && anyNotifyListeners == map[] && log == []
    {
      this.lib := lib;
      root := RootOf(group);
      this.zk := zk;
      failedWatched := {};
      anyServices := {};
      anyNotifyListeners := map[];
      log := [];
    }

    /** Creates `p` persistently, treating NodeExists (a concurrent creator won) as success:
        the guarded `create` of the root node at connect time and of the service node in
        `doRegister`. */
    method CreatePersistent(p: string) returns (r: Result<(), KeeperError>)
      requires Valid() && zk != null
      modifies zk
      ensures Valid()
      ensures SameExcept(zk.nodes, old(zk.nodes), {p})
      ensures p in old(zk.nodes) ==> zk.nodes == old(zk.nodes)
      ensures r.Ok? ==> p in zk.nodes
      ensures old(zk.zxid) <= zk.zxid
      ensures r.Ok? && p !in old(zk.nodes) && p !in old(zk.contenders) ==>
        zk.nodes[p].mode == Persistent
      ensures true !in old(zk.faults) ==> true !in zk.faults
      ensures true !in old(zk.faults) && ValidPath(p) && Parent(p) in old(zk.nodes) ==> r.Ok?
      ensures ValidPath(p) && FaultNext(old(zk.faults)) ==>
        r == Err(ConnectionLoss) && zk.nodes == old(zk.nodes)
      ensures r.Ok? ==> Absorbed(old(zk.faults), zk.faults)
      ensures zk.watches == if p in zk.nodes && p !in old(zk.nodes) then old(zk.watches) - {Parent(p)} else old(zk.watches)
    {
      var c := zk.Create(p, Persistent);
      if c.Err? && c.error != NodeExists {
        return Err(c.error);
      }
      r := Ok(());
    }

    /** `exists` followed, when the node is missing, by the guarded persistent `create`:
        the pattern shared by the root node at connect time and the service node in
        `doRegister`. */
    method EnsureNode(p: string) returns (r: Result<(), KeeperError>)
      requires Valid() && zk != null
      modifies zk
      ensures Valid()
      ensures SameExcept(zk.nodes, old(zk.nodes), {p})
      ensures p in old(zk.nodes) ==> zk.nodes == old(zk.nodes)
      ensures r.Ok? ==> p in zk.nodes
      ensures old(zk.zxid) <= zk.zxid
      ensures r.Ok? && p !in old(zk.nodes) && p !in old(zk.contenders) ==>
        zk.nodes[p].mode == Persistent
      ensures true !in old(zk.faults) ==> true !in zk.faults
      ensures true !in old(zk.faults) && ValidPath(p) && Parent(p) in old(zk.nodes) ==> r.Ok?
      ensures ValidPath(p) && FaultNext(old(zk.faults)) ==>
        r == Err(ConnectionLoss) && zk.nodes == old(zk.nodes)
      ensures r.Ok? ==> Absorbed(old(zk.faults), zk.faults)
      ensures zk.watches == if p in zk.nodes && p !in old(zk.nodes) then old(zk.watches) - {Parent(p)} else old(zk.watches)
    {
      ghost var start, nodes0, contenders0, zxid0 := zk.faults, zk.nodes, zk.contenders, zk.zxid;
      var e := zk.Exists(p);
      assert zk.nodes == nodes0 && zk.contenders == contenders0 && zk.zxid == zxid0;
      if e.Err? {
        return Err(e.error);
      }
      if !e.value {
        ghost var mid := zk.faults;
        assert p !in nodes0;
        var c := CreatePersistent(p);
        if c.Err? {
          return Err(c.error);
        }
        AbsorbedTrans(start, mid, zk.faults);
      }
      r := Ok(());
    }

    /** The root node is created persistently on a fresh session when it is missing;
        a concurrent creator is tolerated. An empty root (no group) is skipped. */
    method EnsureRootNode() returns (r: Result<(), KeeperError>)
      requires Valid() && zk != null
      modifies zk
      ensures Valid()
      ensures SameExcept(zk.nodes, old(zk.nodes), {root})
      ensures root == "" ==> r.Ok? && zk.nodes == old(zk.nodes)
      ensures root in old(zk.nodes) ==> zk.nodes == old(zk.nodes)
      ensures r.Ok? && root != "" ==> root in zk.nodes
      ensures root != "" && root !in zk.nodes ==> r.Err?
      ensures r.Ok? && root != "" && root !in old(zk.nodes) && root !in old(zk.contenders) ==>
        zk.nodes[root].mode == Persistent
      ensures true !in old(zk.faults) ==> true !in zk.faults
      ensures true !in old(zk.faults) && root != "" && ValidPath(root) && Parent(root) in old(zk.nodes) ==> r.Ok?
      ensures root != "" && ValidPath(root) && FaultNext(old(zk.faults)) ==>
        r == Err(ConnectionLoss) && zk.nodes == old(zk.nodes)
      ensures r.Ok? ==> Absorbed(old(zk.faults), zk.faults)
      ensures zk.watches == if root in zk.nodes && root !in old(zk.nodes) then old(zk.watches) - {Parent(root)} else old(zk.watches)
    {
      if root == "" {
        return Ok(());
      }
      r := EnsureNode(root);
    }

    /** The first half of `doRegister`: creates the service node persistently when it is
        missing, tolerating a concurrent creator; a store error becomes the cause. */
    method EnsureServiceNode(service: string) returns (r: Result<(), Cause>)
      requires Valid() && zk != null
      modifies zk
      ensures Valid()
      ensures SameExcept(zk.nodes, old(zk.nodes), {service})
      ensures service in old(zk.nodes) ==> zk.nodes == old(zk.nodes)
      ensures r.Ok? ==> service in zk.nodes
      ensures old(zk.zxid) <= zk.zxid
      ensures r.Ok? && service !in old(zk.nodes) && service !in old(zk.contenders) ==>
        zk.nodes[service].mode == Persistent
      ensures true !in old(zk.faults) ==> true !in zk.faults
      ensures true !in old(zk.faults) && ValidPath(service) && Parent(service) in old(zk.nodes) ==> r.Ok?
      ensures ValidPath(service) && FaultNext(old(zk.faults)) ==>
        r == Err(Keeper(ConnectionLoss)) && zk.nodes == old(zk.nodes)
      ensures r.Ok? ==> Absorbed(old(zk.faults), zk.faults)
      ensures zk.watches == if service in zk.nodes && service !in old(zk.nodes) then old(zk.watches) - {Parent(service)} else old(zk.watches)
    {
      var e := EnsureNode(service);
      if e.Err? {
        return Err(Keeper(e.error));
      }
      r := Ok(());
    }

    /** Deletes a stale node at `provider`, if there is one. */
    method DeleteStale(provider: string) returns (r: Result<(), Cause>)
      requires Valid() && zk != null
      modifies zk
      ensures Valid()
      ensures zk.zxid == old(zk.zxid) && zk.contenders == old(zk.contenders)
      ensures r.Ok? ==> zk.nodes == old(zk.nodes) - {provider}
      ensures r.Err? ==> zk.nodes == old(zk.nodes)
      ensures true !in old(zk.faults) ==> true !in zk.faults
      ensures (true !in old(zk.faults) && ValidPath(provider) && provider != "/" &&
               !HasChildren(old(zk.nodes), provider)) ==> r.Ok?
      ensures ValidPath(provider) && FaultNext(old(zk.faults)) ==> r == Err(Keeper(ConnectionLoss)) && zk.nodes == old(zk.nodes)
      ensures r.Ok? ==> Absorbed(old(zk.faults), zk.faults)
      ensures zk.watches == if r.Ok? && provider in old(zk.nodes) then old(zk.watches) - {provider, Parent(provider)} else old(zk.watches)
    {
      ghost var start := zk.faults;
      var stale := zk.Exists(provider);
      if stale.Err? {
        return Err(Keeper(stale.error));
      }
      if stale.value {
        ghost var mid := zk.faults;
        var d := zk.Delete(provider);
        if d.Err? {
          return Err(Keeper(d.error));
        }
        AbsorbedTrans(start, mid, zk.faults);
      }
      r := Ok(());
    }

    /** Creates the node at `provider` with `mode`; when a concurrent creator got there
        first, deletes its node and creates it once more. */
    method CreateProvider(provider: string, mode: Mode) returns (r: Result<(), Cause>)
      requires Valid() && zk != null
      modifies zk
      ensures Valid()
      ensures SameExcept(zk.nodes, old(zk.nodes), {provider})
      ensures r.Ok? ==> provider in zk.nodes && zk.nodes[provider].mode == mode && zk.nodes[provider].czxid >= old(zk.zxid)
      ensures old(zk.zxid) <= zk.zxid
      ensures true !in old(zk.faults) ==> true !in zk.faults
      ensures (true !in old(zk.faults) && ValidPath(provider) && provider != "/" && provider !in old(zk.nodes) &&
               Parent(provider) in old(zk.nodes) && !HasChildren(old(zk.nodes), provider)) ==> r.Ok?
      ensures ValidPath(provider) && FaultNext(old(zk.faults)) ==>
        r == Err(Keeper(ConnectionLoss)) && zk.nodes == old(zk.nodes) && zk.watches == old(zk.watches)
      ensures r.Ok? ==> Absorbed(old(zk.faults), zk.faults)
      ensures FiredOnly(old(zk.watches), zk.watches, {provider, Parent(provider)})
      ensures r.Ok? ==> Parent(provider) !in zk.watches
    {
      ghost var start := zk.faults;
      var c := zk.Create(provider, mode);
      if c.Err? {
        if c.error != NodeExists {
          return Err(Keeper(c.error));
        }
        if ValidPath(provider) && provider != "/" && provider !in old(zk.nodes) {
          ChildrenKept(zk.nodes, old(zk.nodes), provider, provider);
        }
        ghost var mid := zk.faults;
        r := RecreateProvider(provider, mode);
        if r.Ok? {
          AbsorbedTrans(start, mid, zk.faults);
        }
        return;
      }
      r := Ok(());
    }

    /** After a lost creation race: deletes the node at `provider` and creates it again
        with `mode`. */
    method RecreateProvider(provider: string, mode: Mode) returns (r: Result<(), Cause>)
      requires Valid() && zk != null
      modifies zk
      ensures Valid()
      ensures SameExcept(zk.nodes, old(zk.nodes), {provider})
      ensures r.Ok? ==> provider in zk.nodes && zk.nodes[provider].mode == mode && zk.nodes[provider].czxid >= old(zk.zxid)
      ensures old(zk.zxid) <= zk.zxid
      ensures true !in old(zk.faults) ==> true !in zk.faults
      ensures (true !in old(zk.faults) && ValidPath(provider) && provider != "/" && provider in old(zk.nodes) &&
               provider !in old(zk.contenders) && Parent(provider) in old(zk.nodes) && !HasChildren(old(zk.nodes), provider)) ==> r.Ok?
      ensures r.Ok? ==> Absorbed(old(zk.faults), zk.faults)
      ensures FiredOnly(old(zk.watches), zk.watches, {provider, Parent(provider)})
      ensures r.Ok? ==> Parent(provider) !in zk.watches
    {
      ghost var start := zk.faults;
      var d := zk.Delete(provider);
      if d.Err? {
        return Err(Keeper(d.error));
      }
      if ValidPath(provider) && provider != "/" {
        ParentShorter(provider);
      }
      ghost var mid := zk.faults;
      var c := zk.Create(provider, mode);
      if c.Err? {
        return Err(Keeper(c.error));
      }
      AbsorbedTrans(start, mid, zk.faults);
      r := Ok(());
    }

    /** The second half of `doRegister`: deletes a stale node at `provider`, creates it
        with `mode`, and on a lost race deletes and creates it once more. */
    method ReplaceProviderNode(provider: string, mode: Mode) returns (r: Result<(), Cause>)
      requires Valid() && zk != null
      modifies zk
      ensures Valid()
      ensures SameExcept(zk.nodes, old(zk.nodes), {provider})
      ensures r.Ok? ==> provider in zk.nodes && zk.nodes[provider].mode == mode && zk.nodes[provider].czxid >= old(zk.zxid)
      ensures old(zk.zxid) <= zk.zxid
      ensures true !in old(zk.faults) ==> true !in zk.faults
      ensures (true !in old(zk.faults) && ValidPath(provider) && provider != "/" &&
               Parent(provider) in old(zk.nodes) && !HasChildren(old(zk.nodes), provider)) ==> r.Ok?
      ensures ValidPath(provider) && FaultNext(old(zk.faults)) ==>
        r == Err(Keeper(ConnectionLoss)) && zk.nodes == old(zk.nodes) && zk.watches == old(zk.watches)
      ensures r.Ok? ==> Absorbed(old(zk.faults), zk.faults)
      ensures FiredOnly(old(zk.watches), zk.watches, {provider, Parent(provider)})
      ensures r.Ok? ==> Parent(provider) !in zk.watches
    {
      ghost var start := zk.faults;
      r := DeleteStale(provider);
      if r.Err? {
        return;
      }
      ghost var mid := zk.faults;
      r := CreateProvider(provider, mode);
      if r.Ok? {
        AbsorbedTrans(start, mid, zk.faults);
      }
    }

    /**
     * `doRegister`: makes sure the service node exists, deletes a stale provider node,
     * creates the provider node (persistent for `route`, else ephemeral) and, when a
     * concurrent creator got there first, deletes and creates it once more. Nodes other
     * than these two are left alone, and an existing service node is not touched.
     */
    method DoRegister(url: Url) returns (r: Result<(), RpcException>)
      requires Valid()
      modifies zk
      ensures Valid()
      ensures r.Err? ==> r.error.op == Registering && r.error.url == url
      ensures zk == null ==> r == Err(RpcException(Registering, url, NullHandle))
      ensures zk != null ==>
        SameExcept(zk.nodes, old(zk.nodes), {ServicePath(lib, root, url), ProviderPath(lib, root, url)})
      ensures zk != null && ServicePath(lib, root, url) in old(zk.nodes) ==>
        ServicePath(lib, root, url) in zk.nodes &&
        zk.nodes[ServicePath(lib, root, url)] == old(zk.nodes)[ServicePath(lib, root, url)]
      ensures r.Ok? ==>
        zk != null && ServicePath(lib, root, url) in zk.nodes && ProviderPath(lib, root, url) in zk.nodes &&
        zk.nodes[ProviderPath(lib, root, url)].mode == ModeFor(url) &&
        zk.nodes[ProviderPath(lib, root, url)].czxid >= old(zk.zxid)
      ensures r.Ok? && ProviderPath(lib, root, url) in old(zk.nodes) ==>
        zk.nodes[ProviderPath(lib, root, url)] != old(zk.nodes)[ProviderPath(lib, root, url)]
      ensures r.Ok? && ServicePath(lib, root, url) !in old(zk.nodes) && ServicePath(lib, root, url) !in old(zk.contenders) ==>
        zk.nodes[ServicePath(lib, root, url)].mode == Persistent
      ensures (zk != null && true !in old(zk.faults) && ValidRoot(root) && !IsWildcard(lib, url) &&
               ValidSegment(lib.encode(lib.serviceName(url))) && ValidSegment(lib.encode(lib.fullString(url))) &&
               RootPath(root) in old(zk.nodes) && !HasChildren(old(zk.nodes), ProviderPath(lib, root, url))) ==> r.Ok?
      ensures zk != null && ValidPath(ServicePath(lib, root, url)) && FaultNext(old(zk.faults)) ==>
        r == Err(RpcException(Registering, url, Keeper(ConnectionLoss))) && zk.nodes == old(zk.nodes) &&
        zk.watches == old(zk.watches)
      ensures r.Ok? ==> zk != null && Absorbed(old(zk.faults), zk.faults)
      ensures zk != null ==>
        FiredOnly(old(zk.watches), zk.watches, {Parent(ServicePath(lib, root, url)), ServicePath(lib, root, url),
                                                Parent(ProviderPath(lib, root, url)), ProviderPath(lib, root, url)})
      ensures (r.Ok? && ValidRoot(root) && !IsWildcard(lib, url) && ValidSegment(lib.encode(lib.serviceName(url))) &&
               ValidSegment(lib.encode(lib.fullString(url)))) ==> ServicePath(lib, root, url) !in zk.watches
    {
      if zk == null {
        return Err(RpcException(Registering, url, NullHandle));
      }
      if ValidRoot(root) && !IsWildcard(lib, url) && ValidSegment(lib.encode(lib.serviceName(url))) &&
         ValidSegment(lib.encode(lib.fullString(url))) {
        ServicePathLayout(lib, root, url);
        ProviderPathLayout(lib, root, url);
      }
      var c := RegisterNodes(ServicePath(lib, root, url), ProviderPath(lib, root, url), ModeFor(url));
      if c.Err? {
        return Err(RpcException(Registering, url, c.error));
      }
      r := Ok(());
    }

    /** The store side of `doRegister`: the service node, then the provider node below it. */
    method RegisterNodes(service: string, provider: string, mode: Mode) returns (r: Result<(), Cause>)
      requires Valid() && zk != null && service != provider
      modifies zk
      ensures Valid()
      ensures SameExcept(zk.nodes, old(zk.nodes), {service, provider})
      ensures service in old(zk.nodes) ==> service in zk.nodes && zk.nodes[service] == old(zk.nodes)[service]
      ensures r.Ok? ==>
        service in zk.nodes && provider in zk.nodes &&
        zk.nodes[provider].mode == mode && zk.nodes[provider].czxid >= old(zk.zxid)
      ensures r.Ok? && provider in old(zk.nodes) ==> zk.nodes[provider] != old(zk.nodes)[provider]
      ensures r.Ok? && service !in old(zk.nodes) && service !in old(zk.contenders) ==>
        zk.nodes[service].mode == Persistent
      ensures (true !in old(zk.faults) && ValidPath(service) && Parent(service) in old(zk.nodes) &&
               ValidPath(provider) && provider != "/" && Parent(provider) == service &&
               !HasChildren(old(zk.nodes), provider)) ==> r.Ok?
      ensures ValidPath(service) && FaultNext(old(zk.faults)) ==>
        r == Err(Keeper(ConnectionLoss)) && zk.nodes == old(zk.nodes) && zk.watches == old(zk.watches)
      ensures r.Ok? ==> Absorbed(old(zk.faults), zk.faults)
      ensures FiredOnly(old(zk.watches), zk.watches, {Parent(service), service, Parent(provider), provider})
      ensures r.Ok? ==> Parent(provider) !in zk.watches
    {
      ghost var start := zk.faults;
      ghost var before := zk.nodes;
      var s := EnsureServiceNode(service);
      if s.Err? {
        assert !(true !in start && ValidPath(service) && Parent(service) in before);
        SameExceptWiden(zk.nodes, before, {service}, {service, provider});
        return s;
      }
      ghost var middle := zk.nodes;
      ghost var mid := zk.faults;
      ghost var ready := true !in start && ValidPath(service) && Parent(service) in before &&
                         ValidPath(provider) && provider != "/" && Parent(provider) == service &&
                         !HasChildren(before, provider);
      if ready {
        ParentShorter(provider);
        if service != "/" {
          ParentShorter(service);
        }
        ChildrenKept(middle, before, service, provider);
        assert true !in mid && Parent(provider) in middle && !HasChildren(middle, provider);
      }
      r := ReplaceProviderNode(provider, mode);
      assert service in zk.nodes && zk.nodes[service] == middle[service];
      assert ready ==> r.Ok?;
      SameExceptTrans(zk.nodes, middle, before, {provider}, {service});
      assert {provider} + {service} == {service, provider};
      if r.Ok? {
        AbsorbedTrans(start, mid, zk.faults);
      }
    }

    /** `doUnregister`: deletes the provider node; every failure, a missing node
        included, is an `RpcException`. */
    method DoUnregister(url: Url) returns (r: Result<(), RpcException>)
      requires Valid()
      modifies zk
      ensures Valid()
      ensures zk == null ==> r == Err(RpcException(Unregistering, url, NullHandle))
      ensures r.Err? ==> r.error.op == Unregistering && r.error.url == url
      ensures r.Err? && zk != null ==> zk.nodes == old(zk.nodes)
      ensures r.Ok? ==>
        zk != null && ProviderPath(lib, root, url) in old(zk.nodes) &&
        zk.nodes == old(zk.nodes) - {ProviderPath(lib, root, url)}
      ensures zk != null && ProviderPath(lib, root, url) !in old(zk.nodes) ==> r.Err?
      ensures zk != null && ValidPath(ProviderPath(lib, root, url)) ==>
        (r.Ok? <==> !FaultNext(old(zk.faults)) && ProviderPath(lib, root, url) in old(zk.nodes) &&
                    !HasChildren(old(zk.nodes), ProviderPath(lib, root, url)))
      ensures zk != null ==> zk.zxid == old(zk.zxid) && zk.contenders == old(zk.contenders)
      ensures zk != null ==>
        zk.faults == if ValidPath(ProviderPath(lib, root, url)) && ProviderPath(lib, root, url) != "/" then Rest(old(zk.faults)) else old(zk.faults)
      ensures zk != null ==>
        zk.watches == if r.Ok? then old(zk.watches) - {ProviderPath(lib, root, url), Parent(ProviderPath(lib, root, url))} else old(zk.watches)
    {
      if zk == null {
        return Err(RpcException(Unregistering, url, NullHandle));
      }
      var provider := ProviderPath(lib, root, url);
      var d := zk.Delete(provider);
      if d.Err? {
        return Err(RpcException(Unregistering, url, Keeper(d.error)));
      }
      r := Ok(());
    }

    /** `getChildren`: lists and watches the node's children and decodes every name; a
        missing node is an empty list, every other failure is thrown. */
    method GetChildren(path: string) returns (r: Result<seq<string>, Cause>)
      requires Valid()
      modifies zk
      ensures Valid()
      ensures zk == null ==> r == Err(NullHandle)
      ensures zk != null ==> zk.nodes == old(zk.nodes) && zk.zxid == old(zk.zxid) && zk.contenders == old(zk.contenders)
      ensures zk != null ==> zk.watches == if r.Ok? && path in zk.nodes then old(zk.watches) + {path} else old(zk.watches)
      ensures r.Ok? ==> zk != null && Listed(lib, zk.nodes, path, r.value)
      ensures r.Err? ==> r.error != Keeper(NoNode)
      ensures zk != null && ValidPath(path) && path !in zk.nodes ==> r == Ok([]) || r == Err(Keeper(ConnectionLoss))
      ensures zk != null && ValidPath(path) ==> (r.Err? <==> FaultNext(old(zk.faults)))
      ensures r.Err? && zk != null ==> r.error == Keeper(if ValidPath(path) then ConnectionLoss else BadArguments)
      ensures zk != null && !ValidPath(path) ==> r == Err(Keeper(BadArguments))
      ensures zk != null ==> zk.faults == if ValidPath(path) then Rest(old(zk.faults)) else old(zk.faults)
    {
      if zk == null {
        return Err(NullHandle);
      }
      var list := zk.GetChildren(path);
      if list.Err? {
        if list.error == NoNode {
          return Ok([]);
        }
        return Err(Keeper(list.error));
      }
      var names := list.value;
      if |names| == 0 {
        assert ListingOf(lib, zk.nodes, path, names, []);
        return Ok([]);
      }
      var result := DecodeAll(lib, names);
      assert ListingOf(lib, zk.nodes, path, names, result);
      r := Ok(result);
    }

    /** `watch`: (re-)arms the watch on `path`; on success the path leaves the failed
        set and the decoded children are returned, otherwise it joins the set and the
        result is empty. */
    method Watch(path: string) returns (children: seq<string>)
      requires Valid()
      modifies this`failedWatched, zk
      ensures Valid()
      ensures failedWatched - {path} == old(failedWatched) - {path}
      ensures zk == null ==> path in failedWatched
      ensures path in failedWatched ==> children == []
      ensures path !in failedWatched ==>
        zk != null && Listed(lib, zk.nodes, path, children) && (path in zk.nodes ==> path in zk.watches)
      ensures zk != null ==> zk.nodes == old(zk.nodes) && zk.zxid == old(zk.zxid) && zk.contenders == old(zk.contenders)
      ensures zk != null ==>
        zk.watches == if path !in failedWatched && path in zk.nodes then old(zk.watches) + {path} else old(zk.watches)
      ensures zk != null && ValidPath(path) ==> (path in failedWatched <==> FaultNext(old(zk.faults)))
      ensures zk != null && !ValidPath(path) ==> path in failedWatched
      ensures zk != null ==> zk.faults == if ValidPath(path) then Rest(old(zk.faults)) else old(zk.faults)
    {
      if zk != null {
        var r := GetChildren(path);
        if r.Ok? {
          failedWatched := failedWatched - {path};
          return r.value;
        }
      }
      failedWatched := failedWatched + {path};
      children := [];
    }

    /** One step of the failed-watch pass: lists `service` again and drops it from the
        failed set when that succeeds; a failure leaves the set as it was. */
    method RetryWatch(service: string) returns (failure: Option<Cause>)
      requires Valid()
      modifies this`failedWatched, zk
      ensures Valid()
      ensures failure.None? ==>
        failedWatched == old(failedWatched) - {service} &&
        zk != null && (service in zk.nodes ==> service in zk.watches)
      ensures failure.Some? ==> failedWatched == old(failedWatched) && failure.value == FailureOf(service)
      ensures zk == null ==> failure.Some?
      ensures zk != null && ValidPath(service) ==> (failure.Some? <==> FaultNext(old(zk.faults)))
      ensures zk != null && !ValidPath(service) ==> failure == Some(Keeper(BadArguments))
      ensures zk != null ==> zk.nodes == old(zk.nodes) && zk.zxid == old(zk.zxid) && zk.contenders == old(zk.contenders)
      ensures zk != null ==>
        zk.watches == if failure.None? && service in zk.nodes then old(zk.watches) + {service} else old(zk.watches)
      ensures zk != null ==> zk.faults == if ValidPath(service) then Rest(old(zk.faults)) else old(zk.faults)
    {
      var r := GetChildren(service);
      if r.Err? {
        return Some(r.error);
      }
      failedWatched := failedWatched - {service};
      failure := None;
    }

    /** The state of the failed-watch pass (see `PassState`), read off this registry, with
        the cause recorded for every path that stayed failed. */
    ghost predicate RetryProgress(faults0: seq<bool>, watches0: set<string>, failed: set<string>, todo: set<string>,
                                  failures: map<string, Cause>, order: seq<string>)
      reads this, zk
    {
      (forall p :: p in failures ==> failures[p] == FailureOf(p)) &&
      PassState(zk != null, faults0, watches0, failed, todo, failures, order, failedWatched,
                if zk != null then zk.faults else [], if zk != null then zk.watches else {},
                if zk != null then zk.nodes else map[])
    }

    /** One iteration of the failed-watch pass: retries `service` and records the outcome. */
    method RetryNext(service: string, ghost faults0: seq<bool>, ghost watches0: set<string>, ghost failed: set<string>,
                     ghost todo: set<string>, ghost failures: map<string, Cause>, ghost order: seq<string>)
      returns (ghost nextFailures: map<string, Cause>, ghost nextOrder: seq<string>)
      requires Valid() && service in todo
      requires RetryProgress(faults0, watches0, failed, todo, failures, order)
      modifies this`failedWatched, zk
      ensures Valid()
      ensures nextOrder == order + [service]
      ensures RetryProgress(faults0, watches0, failed, todo - {service}, nextFailures, nextOrder)
      ensures zk != null ==> zk.nodes == old(zk.nodes) && zk.zxid == old(zk.zxid) && zk.contenders == old(zk.contenders)
    {
      ghost var now := failedWatched;
      ghost var faults := if zk != null then zk.faults else [];
      ghost var watches := if zk != null then zk.watches else {};
      ghost var nodes := if zk != null then zk.nodes else map[];
      var failure := RetryWatch(service);
      nextFailures := if failure.Some? then failures[service := failure.value] else failures;
      nextOrder := order + [service];
      ghost var nextFaults := if zk != null then zk.faults else [];
      ghost var nextWatches := if zk != null then zk.watches else {};
      PassStep(zk != null, faults0, watches0, failed, todo, failures, order, now, faults, watches, nodes,
               service, failure.None?, if failure.Some? then failure.value else NullHandle, nextFailures,
               failedWatched, nextFaults, nextWatches);
    }

    /**
     * The failed-watch pass of `doRetry`: every path of a snapshot of the failed set is
     * listed again, in the order `order`; it leaves the set when the listing succeeds and
     * stays, with the cause recorded in `failures`, when it throws.
     */
    method DoRetry() returns (ghost failures: map<string, Cause>, ghost order: seq<string>)
      requires Valid()
      modifies this`failedWatched, zk
      ensures Valid()
      ensures (set p | p in order) == old(failedWatched)
      ensures forall i, j :: 0 <= i < j < |order| ==> order[i] != order[j]
      ensures failures.Keys <= old(failedWatched)
      ensures failedWatched == failures.Keys
      ensures forall p :: p in failures ==> failures[p] == FailureOf(p)
      ensures forall i :: 0 <= i < |order| ==>
        (order[i] in failedWatched <==>
         zk == null || !ValidPath(order[i]) || FaultNext(Drop(old(zk.faults), ValidCount(order[..i]))))
      ensures zk == null ==> failedWatched == old(failedWatched)
      ensures zk != null ==> zk.faults == Drop(old(zk.faults), ValidCount(order))
      ensures zk != null && true !in old(zk.faults) ==> forall p :: p in failedWatched ==> !ValidPath(p)
      ensures zk != null ==> zk.nodes == old(zk.nodes) && zk.zxid == old(zk.zxid) && zk.contenders == old(zk.contenders)
      ensures zk != null ==>
        zk.watches == old(zk.watches) + (set p | p in old(failedWatched) && p !in failedWatched && p in zk.nodes)
    {
      failures := map[];
      order := [];
      ghost var faults0 := if zk != null then zk.faults else [];
      ghost var watches0 := if zk != null then zk.watches else {};
      var failed := failedWatched;
      var todo := failed;
      RetryStart(faults0, watches0);
      if |failed| > 0 {
        while todo != {}
          invariant Valid() && failed == old(failedWatched)
          invariant RetryProgress(faults0, watches0, failed, todo, failures, order)
          invariant zk != null ==> zk.nodes == old(zk.nodes) && zk.zxid == old(zk.zxid) && zk.contenders == old(zk.contenders)
          decreases todo
        {
          var service :| service in todo;
          failures, order := RetryNext(service, faults0, watches0, failed, todo, failures, order);
          todo := todo - {service};
        }
      }
      RetryDone(faults0, watches0, failed, failures, order);
    }

    /** Before the failed-watch pass nothing has been retried. */
    lemma RetryStart(faults0: seq<bool>, watches0: set<string>)
      requires Valid()
      requires zk != null ==> zk.faults == faults0 && zk.watches == watches0
      ensures RetryProgress(faults0, watches0, failedWatched, failedWatched, map[], [])
    {
    }

    /** At the end of the failed-watch pass every snapshot path has been retried. */
    lemma RetryDone(faults0: seq<bool>, watches0: set<string>, failed: set<string>,
                    failures: map<string, Cause>, order: seq<string>)
      requires RetryProgress(faults0, watches0, failed, {}, failures, order)
      ensures (set p | p in order) == failed
      ensures failedWatched == failures.Keys
      ensures zk != null && true !in faults0 ==> forall p :: p in failedWatched ==> !ValidPath(p)
      ensures zk != null ==> zk.watches == watches0 + (set p | p in failed && p !in failedWatched && p in zk.nodes)
    {
    }

    /** Subscribes `listener` to each listed service, in order, with `url` rewritten to
        that service. */
    method SubscribeServices(url: Url, services: seq<string>, listener: Listener)
      modifies this`log
      ensures log == old(log) + Discoveries(url, services, listener)
    {
      for i := 0 to |services|
        invariant log == old(log) + Discoveries(url, services[..i], listener)
      {
        var call := Subscribe(DiscoveredUrl(url, services[i]), listener);
        assert services[..i + 1][..i] == services[..i];
        assert Discoveries(url, services[..i + 1], listener) == Discoveries(url, services[..i], listener) + [call];
        log := log + [call];
      }
      assert services[..|services|] == services;
    }

    /** Records a non-empty root listing as known services and subscribes `listener` to
        each listed service, in order. */
    method AddServices(url: Url, services: seq<string>, listener: Listener)
      modifies this`anyServices, this`log
      ensures anyServices == old(anyServices) + (set s | s in services)
      ensures log == old(log) + Discoveries(url, services, listener)
    {
      if |services| > 0 {
        anyServices := anyServices + (set s | s in services);
        SubscribeServices(url, services, listener);
      }
    }

    /** The wildcard half of `doSubscribe`: the listener joins the URL's key, then the
        root is listed and every listed service subscribed to. */
    method SubscribeAny(url: Url, listener: Listener) returns (r: Result<(), RpcException>, ghost seen: seq<string>)
      requires Valid()
      modifies this`anyServices, this`anyNotifyListeners, this`log, zk
      ensures Valid()
      ensures r.Err? ==> r.error == RpcException(Subscribing, url, r.error.cause) && seen == []
      ensures zk != null ==> zk.nodes == old(zk.nodes)
      ensures r.Ok? ==> zk != null && Listed(lib, zk.nodes, RootPath(root), seen)
      ensures zk != null && ValidPath(RootPath(root)) ==> (r.Err? <==> FaultNext(old(zk.faults)))
      ensures zk != null && !ValidPath(RootPath(root)) ==> r == Err(RpcException(Subscribing, url, Keeper(BadArguments)))
      ensures zk != null ==> zk.zxid == old(zk.zxid) && zk.contenders == old(zk.contenders)
      ensures var key := lib.fullString(url);
        anyNotifyListeners == old(anyNotifyListeners)[key :=
          (if key in old(anyNotifyListeners) then old(anyNotifyListeners)[key] else {}) + {listener}]
      ensures anyServices == old(anyServices) + (set s | s in seen)
      ensures log == old(log) + Discoveries(url, seen, listener)
      ensures zk != null ==> zk.watches == if r.Ok? && RootPath(root) in zk.nodes then old(zk.watches) + {RootPath(root)} else old(zk.watches)
      ensures zk != null ==> zk.faults == if ValidPath(RootPath(root)) then Rest(old(zk.faults)) else old(zk.faults)
    {
      var key := lib.fullString(url);
      var listeners := if key in anyNotifyListeners then anyNotifyListeners[key] else {};
      anyNotifyListeners := anyNotifyListeners[key := listeners + {listener}];
      r, seen := DiscoverServices(url, listener);
    }

    /** Lists the root and, when that succeeds, records the listed services as known and
        subscribes `listener` to each, in listing order. */
    method DiscoverServices(url: Url, listener: Listener) returns (r: Result<(), RpcException>, ghost seen: seq<string>)
      requires Valid()
      modifies this`anyServices, this`log, zk
      ensures Valid()
      ensures r.Err? ==> r.error == RpcException(Subscribing, url, r.error.cause) && seen == []
      ensures zk != null ==> zk.nodes == old(zk.nodes)
      ensures r.Ok? ==> zk != null && Listed(lib, zk.nodes, RootPath(root), seen)
      ensures zk != null && ValidPath(RootPath(root)) ==> (r.Err? <==> FaultNext(old(zk.faults)))
      ensures zk != null && !ValidPath(RootPath(root)) ==> r == Err(RpcException(Subscribing, url, Keeper(BadArguments)))
      ensures zk != null ==> zk.zxid == old(zk.zxid) && zk.contenders == old(zk.contenders)
      ensures anyServices == old(anyServices) + (set s | s in seen)
      ensures log == old(log) + Discoveries(url, seen, listener)
      ensures zk != null ==> zk.watches == if r.Ok? && RootPath(root) in zk.nodes then old(zk.watches) + {RootPath(root)} else old(zk.watches)
      ensures zk != null ==> zk.faults == if ValidPath(RootPath(root)) then Rest(old(zk.faults)) else old(zk.faults)
    {
      seen := [];
      var services := GetChildren(RootPath(root));
      if services.Err? {
        return Err(RpcException(Subscribing, url, services.error)), [];
      }
      seen := services.value;
      AddServices(url, services.value, listener);
      r := Ok(());
    }

    /** The concrete half of `doSubscribe`. */
    method SubscribeService(url: Url, listener: Listener) returns (r: Result<(), RpcException>, ghost seen: seq<string>)
      requires Valid()
      modifies this`log, zk
      ensures Valid()
      ensures r.Err? ==> r.error == RpcException(Subscribing, url, r.error.cause) && seen == []
      ensures zk != null ==> zk.nodes == old(zk.nodes)
      ensures r.Ok? ==> zk != null && Listed(lib, zk.nodes, ServicePath(lib, root, url), seen)
      ensures zk != null && ValidPath(ServicePath(lib, root, url)) ==> (r.Err? <==> FaultNext(old(zk.faults)))
      ensures zk != null && !ValidPath(ServicePath(lib, root, url)) ==>
        r == Err(RpcException(Subscribing, url, Keeper(BadArguments)))
      ensures zk != null ==> zk.zxid == old(zk.zxid) && zk.contenders == old(zk.contenders)
      ensures log == old(log) + (if BoolParameter(url, RegisterKey, true) then [Register(url)] else []) +
                                (if r.Ok? && UrlsFor(lib, url, seen) != [] then [Notify(url, listener, UrlsFor(lib, url, seen))] else [])
      ensures zk != null ==> zk.watches == if r.Ok? && ServicePath(lib, root, url) in zk.nodes then old(zk.watches) + {ServicePath(lib, root, url)} else old(zk.watches)
      ensures zk != null ==> zk.faults == if ValidPath(ServicePath(lib, root, url)) then Rest(old(zk.faults)) else old(zk.faults)
    {
      seen := [];
      if BoolParameter(url, RegisterKey, true) {
        log := log + [Register(url)];
      }
      var service := ServicePath(lib, root, url);
      var providers := GetChildren(service);
      if providers.Err? {
        return Err(RpcException(Subscribing, url, providers.error)), [];
      }
      seen := providers.value;
      var urls := ToUrls(lib, url, providers.value);
      if |urls| > 0 {
        log := log + [Notify(url, listener, urls)];
      }
      r := Ok(());
    }

    /**
     * `doSubscribe`. For the wildcard service: adds the listener under the URL's full
     * string, lists the root, records every listed service as known and subscribes the
     * listener to each, in listing order. For a concrete service: registers the consumer
     * when it asks to be registered, lists the service node's providers and notifies the
     * listener of the filtered URLs when there are any. Store failures become an
     * `RpcException`.
     */
    method DoSubscribe(url: Url, listener: Listener) returns (r: Result<(), RpcException>, ghost seen: seq<string>)
      requires Valid()
      modifies this`anyServices, this`anyNotifyListeners, this`log, zk
      ensures Valid()
      ensures r.Err? ==> r.error == RpcException(Subscribing, url, r.error.cause) && seen == []
      ensures zk == null ==> r.Err?
      ensures zk != null ==> zk.nodes == old(zk.nodes)
      ensures r.Ok? ==> zk != null && Listed(lib, zk.nodes, ServicePath(lib, root, url), seen)
      ensures zk != null && ValidPath(ServicePath(lib, root, url)) ==> (r.Err? <==> FaultNext(old(zk.faults)))
      ensures zk != null && !ValidPath(ServicePath(lib, root, url)) ==>
        r == Err(RpcException(Subscribing, url, Keeper(BadArguments)))
      ensures zk != null ==> zk.zxid == old(zk.zxid) && zk.contenders == old(zk.contenders)
      ensures old(anyServices) <= anyServices
      ensures IsWildcard(lib, url) ==>
        var key := lib.fullString(url);
        anyNotifyListeners == old(anyNotifyListeners)[key :=
          (if key in old(anyNotifyListeners) then old(anyNotifyListeners)[key] else {}) + {listener}]
      ensures IsWildcard(lib, url) ==> anyServices == old(anyServices) + (set s | s in seen)
      ensures IsWildcard(lib, url) ==> log == old(log) + Discoveries(url, seen, listener)
      ensures !IsWildcard(lib, url) ==> anyNotifyListeners == old(anyNotifyListeners) && anyServices == old(anyServices)
      ensures !IsWildcard(lib, url) ==>
        log == old(log) + (if BoolParameter(url, RegisterKey, true) then [Register(url)] else []) +
                          (if r.Ok? && UrlsFor(lib, url, seen) != [] then [Notify(url, listener, UrlsFor(lib, url, seen))] else [])
      ensures zk != null ==> zk.watches == if r.Ok? && ServicePath(lib, root, url) in zk.nodes then old(zk.watches) + {ServicePath(lib, root, url)} else old(zk.watches)
      ensures zk != null ==> zk.faults == if ValidPath(ServicePath(lib, root, url)) then Rest(old(zk.faults)) else old(zk.faults)
    {
      if IsWildcard(lib, url) {
        r, seen := SubscribeAny(url, listener);
      } else {
        r, seen := SubscribeService(url, listener);
      }
    }

    /** `doUnsubscribe`: removes the listener from a wildcard subscription, or
        unregisters a concrete consumer that asked to be registered. */
    method DoUnsubscribe(url: Url, listener: Listener)
      modifies this`anyNotifyListeners, this`log
      ensures IsWildcard(lib, url) ==>
        log == old(log) &&
        anyNotifyListeners ==
          (var key := lib.fullString(url);
           if key in old(anyNotifyListeners) then old(anyNotifyListeners)[key := old(anyNotifyListeners)[key] - {listener}]
           else old(anyNotifyListeners))
      ensures !IsWildcard(lib, url) ==>
        anyNotifyListeners == old(anyNotifyListeners) &&
        log == old(log) + (if BoolParameter(url, RegisterKey, true) then [Unregister(url)] else [])
    {
      if IsWildcard(lib, url) {
        var key := lib.fullString(url);
        if key in anyNotifyListeners {
          anyNotifyListeners := anyNotifyListeners[key := anyNotifyListeners[key] - {listener}];
        }
      } else {
        if BoolParameter(url, RegisterKey, true) {
          log := log + [Unregister(url)];
        }
      }
    }

    /** Subscribes every listener in `listeners` with `url`. */
    method SubscribeEach(url: Url, listeners: set<Listener>)
      modifies this`log
      ensures Extends(old(log), log)
      ensures NewCalls(old(log), log) == Subscribes(url, listeners)
      ensures |log| == |old(log)| + |listeners|
    {
      var todo := listeners;
      ghost var done: set<Listener> := {};
      while todo != {}
        invariant done + todo == listeners && done !! todo
        invariant Extends(old(log), log)
        invariant NewCalls(old(log), log) == Subscribes(url, done)
        invariant |log| == |old(log)| + |done|
        decreases todo
      {
        var listener :| listener in todo;
        NewCallsAppend(old(log), log, Subscribe(url, listener));
        SubscribesAdd(url, done, listener);
        log := log + [Subscribe(url, listener)];
        done := done + {listener};
        todo := todo - {listener};
      }
    }

    /** Notifies every listener in `listeners` of `urls` for the subscription `url`. */
    method NotifyEach(url: Url, listeners: set<Listener>, urls: seq<Url>)
      modifies this`log
      ensures Extends(old(log), log)
      ensures NewCalls(old(log), log) == Notifies(url, listeners, urls)
      ensures |log| == |old(log)| + |listeners|
    {
      var todo := listeners;
      ghost var done: set<Listener> := {};
      while todo != {}
        invariant done + todo == listeners && done !! todo
        invariant Extends(old(log), log)
        invariant NewCalls(old(log), log) == Notifies(url, done, urls)
        invariant |log| == |old(log)| + |done|
        decreases todo
      {
        var listener :| listener in todo;
        NewCallsAppend(old(log), log, Notify(url, listener, urls));
        NotifiesAdd(url, done, urls, listener);
        log := log + [Notify(url, listener, urls)];
        done := done + {listener};
        todo := todo - {listener};
      }
    }

    /** For one newly seen service, subscribes every listener of every wildcard key with
        the key's URL rewritten to that service. */
    method SubscribeDiscovered(service: string)
      modifies this`log
      ensures Extends(old(log), log)
      ensures NewCalls(old(log), log) == KeySubscribes(lib, anyNotifyListeners.Keys, anyNotifyListeners, service)
    {
      var todo := anyNotifyListeners.Keys;
      ghost var done: set<string> := {};
      while todo != {}
        invariant todo <= anyNotifyListeners.Keys && done == anyNotifyListeners.Keys - todo
        invariant Extends(old(log), log)
        invariant NewCalls(old(log), log) == KeySubscribes(lib, done, anyNotifyListeners, service)
        decreases todo
      {
        var key :| key in todo;
        SubscribeKey(service, key, old(log), done);
        done := done + {key};
        todo := todo - {key};
      }
    }

    /** Subscribes every listener of the wildcard key `key` with the key's URL rewritten
        to `service`, after the keys `done`. */
    method SubscribeKey(service: string, key: string, ghost start: seq<Call>, ghost done: set<string>)
      requires key in anyNotifyListeners
      requires Extends(start, log) && NewCalls(start, log) == KeySubscribes(lib, done, anyNotifyListeners, service)
      modifies this`log
      ensures Extends(start, log) && NewCalls(start, log) == KeySubscribes(lib, done + {key}, anyNotifyListeners, service)
    {
      var subscribeUrl := DiscoveredUrl(lib.valueOf(key), service);
      ghost var before := log;
      SubscribeEach(subscribeUrl, anyNotifyListeners[key]);
      KeySubscribesStep(lib, start, before, log, done, key, anyNotifyListeners, service);
    }

    /**
     * The root branch of the watch callback: every listed service not yet known becomes
     * known and is subscribed for every wildcard key and listener; known services are
     * skipped.
     */
    method RootChildrenChanged(services: seq<string>)
      modifies this`anyServices, this`log
      ensures anyServices == old(anyServices) + (set s | s in services)
      ensures Extends(old(log), log)
      ensures NewCalls(old(log), log) == DiscoveryCalls(lib, services, old(anyServices), anyNotifyListeners)
    {
      for i := 0 to |services|
        invariant anyServices == old(anyServices) + (set s | s in services[..i])
        invariant Extends(old(log), log)
        invariant NewCalls(old(log), log) + DiscoveryCalls(lib, services[i..], anyServices, anyNotifyListeners) ==
                  DiscoveryCalls(lib, services, old(anyServices), anyNotifyListeners)
      {
        var service := services[i];
        ListedStep(services, i, i + 1);
        ghost var done := NewCalls(old(log), log);
        if service in anyServices {
          DiscoveryAdvance(lib, services, i, old(anyServices), anyServices, anyNotifyListeners, done, {});
          assert anyServices + {service} == anyServices;
        } else {
          DiscoveryAdvance(lib, services, i, old(anyServices), anyServices, anyNotifyListeners, done,
                           KeySubscribes(lib, anyNotifyListeners.Keys, anyNotifyListeners, service));
          anyServices := anyServices + {service};
          ghost var before := log;
          SubscribeDiscovered(service);
          NewCallsTrans(old(log), before, log);
        }
      }
      assert services[..|services|] == services;
    }

    /** One subscription in the service branch: when it is for `service` and its filtered
        URL list is non-empty, each of its listeners is notified of that list. */
    method NotifySubscription(service: string, key: string, listeners: set<Listener>, providers: seq<string>)
      modifies this`log
      ensures Extends(old(log), log)
      ensures NewCalls(old(log), log) ==
        if lib.serviceName(lib.valueOf(key)) == service && UrlsFor(lib, lib.valueOf(key), providers) != []
        then Notifies(lib.valueOf(key), listeners, UrlsFor(lib, lib.valueOf(key), providers))
        else {}
      ensures |log| == |old(log)| +
        if lib.serviceName(lib.valueOf(key)) == service && UrlsFor(lib, lib.valueOf(key), providers) != []
        then |listeners| else 0
    {
      var subscribe := lib.valueOf(key);
      var subscribeService := lib.serviceName(subscribe);
      if service == subscribeService {
        var list := ToUrls(lib, subscribe, providers);
        if |list| > 0 {
          NotifyEach(subscribe, listeners, list);
        }
      }
    }

    /**
     * The service branch of the watch callback: the service is the decoded text after the
     * last "/" of the path; every subscription for that service whose filtered URL list
     * is non-empty notifies each of its listeners.
     */
    method ServiceChildrenChanged(path: string, providers: seq<string>, subscribed: map<string, set<Listener>>)
      modifies this`log
      ensures Extends(old(log), log)
      ensures NewCalls(old(log), log) == ChangeCalls(lib, subscribed.Keys, subscribed, ServiceOfPath(lib, path), providers)
    {
      var service := path;
      var i := LastIndexOf(service, Separator);
      if i >= 0 {
        service := service[i + 1..];
      }
      assert service == LastSegment(path);
      service := lib.decode(service);
      NotifySubscriptions(service, providers, subscribed);
    }

    /** Runs every subscription in `subscribed` against the fired `service`. */
    method NotifySubscriptions(service: string, providers: seq<string>, subscribed: map<string, set<Listener>>)
      modifies this`log
      ensures Extends(old(log), log)
      ensures NewCalls(old(log), log) == ChangeCalls(lib, subscribed.Keys, subscribed, service, providers)
    {
      var todo := subscribed.Keys;
      ghost var done: set<string> := {};
      while todo != {}
        invariant todo + done == subscribed.Keys && todo !! done
        invariant Extends(old(log), log)
        invariant NewCalls(old(log), log) == ChangeCalls(lib, done, subscribed, service, providers)
        decreases todo
      {
        var key :| key in todo;
        ghost var before := log;
        NotifySubscription(service, key, subscribed[key], providers);
        NewCallsTrans(old(log), before, log);
        ChangeCallsAdd(lib, done, key, subscribed, service, providers);
        done := done + {key};
        todo := todo - {key};
      }
    }

    /**
     * The NodeChildrenChanged part of the watch callback. Other events, and events without
     * a path, change nothing. Otherwise the path's watch is re-armed; an empty listing ends
     * the step; the root path runs wildcard discovery and any other path notifies the
     * subscriptions of its service.
     */
    method Process(event: Event, subscribed: map<string, set<Listener>>) returns (ghost children: seq<string>)
      requires Valid()
      modifies this`failedWatched, this`anyServices, this`log, zk
      ensures Valid()
      ensures old(anyServices) <= anyServices
      ensures Extends(old(log), log)
      ensures !Relevant(event) ==>
        failedWatched == old(failedWatched) && anyServices == old(anyServices) && log == old(log) &&
        (zk != null ==> zk.nodes == old(zk.nodes) && zk.watches == old(zk.watches))
      ensures zk != null ==> zk.zxid == old(zk.zxid) && zk.contenders == old(zk.contenders)
      ensures Relevant(event) ==>
        var p := event.path.value;
        failedWatched - {p} == old(failedWatched) - {p} &&
        (p in failedWatched ==> children == []) &&
        (p !in failedWatched ==> zk != null && Listed(lib, zk.nodes, p, children) && (p in zk.nodes ==> p in zk.watches)) &&
        (zk != null && ValidPath(p) ==> (p in failedWatched <==> FaultNext(old(zk.faults)))) &&
        (zk != null && !ValidPath(p) ==> p in failedWatched) &&
        (zk != null ==> zk.nodes == old(zk.nodes)) &&
        (zk != null ==>
          zk.watches == if p !in failedWatched && p in zk.nodes then old(zk.watches) + {p} else old(zk.watches))
      ensures children == [] ==> log == old(log) && anyServices == old(anyServices)
      ensures Relevant(event) && event.path.value == RootPath(root) ==>
        anyServices == old(anyServices) + (set s | s in children) &&
        NewCalls(old(log), log) == DiscoveryCalls(lib, children, old(anyServices), anyNotifyListeners)
      ensures Relevant(event) && event.path.value != RootPath(root) && children != [] ==>
        anyServices == old(anyServices) &&
        NewCalls(old(log), log) == ChangeCalls(lib, subscribed.Keys, subscribed, ServiceOfPath(lib, event.path.value), children)
    {
      children := [];
      if event.eventType != NodeChildrenChanged {
        return;
      }
      if event.path.None? || event.path.value == "" {
        return;
      }
      var path := event.path.value;
      var listed := Watch(path);
      children := listed;
      if |listed| == 0 {
        return;
      }
      if path == RootPath(root) {
        RootChildrenChanged(listed);
      } else {
        ServiceChildrenChanged(path, listed, subscribed);
      }
    }
  }

}

=== FILE: results.dfy ===
/** Option and Result values used for Java's nulls and exceptions. */
module Results {

  /** A value that may be absent (a Java reference that may be null). */
  datatype Option<+T> = None | Some(value: T)

  /** The outcome of an operation that either returns a value or throws. */
  datatype Result<+T, +E> = Ok(value: T) | Err(error: E)

}

=== FILE: store.dfy ===
/**
 * An in-memory stand-in for the coordination store: a tree of nodes keyed by path, each
 * persistent or ephemeral, with the four operations the registry uses (exists, create,
 * delete, getChildren with a watch). Every operation may fail with a connection loss
 * (scripted by `faults`), and a create may race with another client that creates the
 * same node first (scripted by `contenders`); otherwise the outcome is the store's own.
 */
module NodeStore {
  import opened Results
  import opened Paths

  datatype Mode = Persistent | Ephemeral

  /** A node: its creation mode and the transaction id that created it. */
  datatype Node = Node(mode: Mode, czxid: nat)

  /** What a store call can throw. A malformed path is `BadArguments` here; the real client
      rejects it with an `IllegalArgumentException` before any request is sent, and keeps
      `BadArgumentsException` for deleting "/", but every caller in the registry catches any
      throwable, so the two are never told apart. */
  datatype KeeperError = NoNode | NodeExists | NotEmpty | BadArguments | ConnectionLoss

  /** Every path outside `paths` is present in both maps or in neither, with the same node. */
  ghost predicate SameExcept(a: map<string, Node>, b: map<string, Node>, paths: set<string>)
  {
    forall q :: q !in paths ==> (q in a <==> q in b) && (q in a ==> a[q] == b[q])
  }

  /** Watches only fire: none is armed, and only those on `paths` may be gone. */
  ghost predicate FiredOnly(before: set<string>, after: set<string>, paths: set<string>)
  {
    before - paths <= after <= before
  }

  /** The names of the children of the node at `p`. */
  function ChildNames(nodes: map<string, Node>, p: string): set<string>
  {
    set q | q in nodes && q != "/" && Parent(q) == p :: LastSegment(q)
  }

  predicate HasChildren(nodes: map<string, Node>, p: string)
  {
    exists q :: q in nodes && q != "/" && Parent(q) == p
  }

  /** The namespace is a tree: the root exists and every other node is a valid path whose
      parent exists. */
  ghost predicate Tree(nodes: map<string, Node>)
  {
    "/" in nodes && forall q :: q in nodes && q != "/" ==> ValidPath(q) && Parent(q) in nodes
  }

  /** Whether the next store operation suffers a connection loss. */
  predicate FaultNext(faults: seq<bool>)
  {
    faults != [] && faults[0]
  }

  /** The fault script once one operation has consumed its entry. */
  function Rest(faults: seq<bool>): (rest: seq<bool>)
    ensures true !in faults ==> true !in rest
  {
    if faults == [] then [] else faults[1..]
  }

  /** The fault script after `n` operations on valid paths. */
  function Drop(faults: seq<bool>, n: nat): (rest: seq<bool>)
    ensures true !in faults ==> true !in rest
  {
    if n == 0 then faults else Rest(Drop(faults, n - 1))
  }

  /** `after` is what is left of the fault script `before` once some operations have
      consumed entries of it, none of which was a connection loss. */
  ghost predicate Absorbed(before: seq<bool>, after: seq<bool>)
  {
    |after| <= |before| && after == before[|before| - |after|..] && true !in before[..|before| - |after|]
  }

  /** An operation that suffers no connection loss consumes at most one entry, and that
      entry is not a connection loss. */
  lemma AbsorbedStep(before: seq<bool>, after: seq<bool>, next: seq<bool>)
    requires Absorbed(before, after)
    requires next == after || (!FaultNext(after) && next == Rest(after))
    ensures Absorbed(before, next)
  {
  }

  lemma AbsorbedTrans(a: seq<bool>, b: seq<bool>, c: seq<bool>)
    requires Absorbed(a, b) && Absorbed(b, c)
    ensures Absorbed(a, c)
  {
  }

  /** Lists a finite set in some order, each element once. */
  method Enumerate(s: set<string>) returns (list: seq<string>)
    ensures |list| == |s|
    ensures forall x :: x in list <==> x in s
  {
    list := [];
    var rest := s;
    while rest != {}
      invariant rest <= s
      invariant forall x :: x in list <==> x in s && x !in rest
      invariant |list| + |rest| == |s|
      decreases rest
    {
      var x :| x in rest;
      list := list + [x];
      rest := rest - {x};
    }
  }

  class Store {
    var nodes: map<string, Node>
    /** The next transaction id: every existing node was created by an earlier one. */
    var zxid: nat
    /** Paths on which a children watch is armed. A watch fires once: creating or deleting
        a child of the path, or deleting the node itself, fires it and removes it. */
    var watches: set<string>
    /** Scripted connection losses: the next operation fails when the head is true. */
    var faults: seq<bool>
    /** Nodes another client creates just before our create of the same path. */
    var contenders: map<string, Mode>

    ghost predicate Valid()
      reads this
    {
      Tree(nodes) && forall q :: q in nodes ==> nodes[q].czxid < zxid
    }

    constructor (faults: seq<bool>, contenders: map<string, Mode>)
      ensures Valid()
      ensures nodes == map["/" := Node(Persistent, 0)] && watches == {}
      ensures this.faults == faults && this.contenders == contenders
    {
      nodes := map["/" := Node(Persistent, 0)];
      zxid := 1;
      watches := {};
      this.faults := faults;
      this.contenders := contenders;
    }

    method NextFault() returns (fail: bool)
      modifies this`faults
      ensures fail == FaultNext(old(faults))
      ensures faults == Rest(old(faults))
    {
      fail := faults != [] && faults[0];
      if faults != [] {
        faults := faults[1..];
      }
    }

    /** `exists(path, false)`: whether a node is present; sets no watch. */
    method Exists(p: string) returns (r: Result<bool, KeeperError>)
      requires Valid()
      modifies this`faults
      ensures Valid()
      ensures r == Err(BadArguments) <==> !ValidPath(p)
      ensures ValidPath(p) ==> r == if FaultNext(old(faults)) then Err(ConnectionLoss) else Ok(p in nodes)
      ensures faults == if ValidPath(p) then Rest(old(faults)) else old(faults)
      ensures r != Err(ConnectionLoss) ==> Absorbed(old(faults), faults)
      ensures nodes == old(nodes) && contenders == old(contenders) && zxid == old(zxid)
      ensures watches == old(watches)
    {
      if !ValidPath(p) {
        return Err(BadArguments);
      }
      var fail := NextFault();
      if fail {
        return Err(ConnectionLoss);
      }
      r := Ok(p in nodes);
    }

    /** `create(path, data, acl, mode)`: adds a node under an existing parent; fails if the
        path is taken, including by a client that raced ahead. */
    method Create(p: string, mode: Mode) returns (r: Result<(), KeeperError>)
      requires Valid()
      modifies this`nodes, this`zxid, this`faults, this`contenders, this`watches
      ensures Valid()
      ensures old(zxid) <= zxid
      ensures r == Err(BadArguments) <==> !ValidPath(p)
      ensures r.Ok? ==> (ValidPath(p) && p !in old(nodes) && Parent(p) in old(nodes) &&
                         nodes == old(nodes)[p := Node(mode, old(zxid))])
      ensures r == Err(NodeExists) ==>
        (ValidPath(p) && p in nodes &&
         (p in old(nodes) ==> nodes == old(nodes)) &&
         (p !in old(nodes) ==> p in old(contenders) &&
                               nodes == old(nodes)[p := Node(old(contenders)[p], old(zxid))]))
      ensures r == Err(NoNode) ==> Parent(p) !in old(nodes)
      ensures r.Err? && r.error != NodeExists ==> nodes == old(nodes)
      ensures r.Err? ==> r.error in {BadArguments, ConnectionLoss, NodeExists, NoNode}
      ensures ValidPath(p) && p in old(nodes) ==> r == Err(NodeExists) || r == Err(ConnectionLoss)
      ensures ValidPath(p) && p !in old(nodes) && Parent(p) !in old(nodes) ==>
        r == Err(NoNode) || r == Err(ConnectionLoss)
      ensures ValidPath(p) ==> (r == Err(ConnectionLoss) <==> FaultNext(old(faults)))
      ensures ValidPath(p) && !FaultNext(old(faults)) && p !in old(nodes) && Parent(p) in old(nodes) ==>
        (r.Ok? <==> p !in old(contenders))
      ensures faults == if ValidPath(p) then Rest(old(faults)) else old(faults)
      ensures r != Err(ConnectionLoss) ==> Absorbed(old(faults), faults)
      ensures contenders == if r == Err(NodeExists) && p !in old(nodes) then old(contenders) - {p} else old(contenders)
      ensures watches == if p in nodes && p !in old(nodes) then old(watches) - {Parent(p)} else old(watches)
    {
      if !ValidPath(p) {
        return Err(BadArguments);
      }
      var fail := NextFault();
      if fail {
        return Err(ConnectionLoss);
      }
      if p in nodes {
        return Err(NodeExists);
      }
      if Parent(p) !in nodes {
        return Err(NoNode);
      }
      if p in contenders {
        nodes := nodes[p := Node(contenders[p], zxid)];
        zxid := zxid + 1;
        contenders := contenders - {p};
        watches := watches - {Parent(p)};
        return Err(NodeExists);
      }
      nodes := nodes[p := Node(mode, zxid)];
      zxid := zxid + 1;
      watches := watches - {Parent(p)};
      r := Ok(());
    }

    /** `delete(path, -1)`: removes a childless node of any version; the namespace root
        cannot be removed. */
    method Delete(p: string) returns (r: Result<(), KeeperError>)
      requires Valid()
      modifies this`nodes, this`faults, this`watches
      ensures Valid()
      ensures r == Err(BadArguments) <==> !ValidPath(p) || p == "/"
      ensures r.Ok? ==> (p in old(nodes) && p != "/" && !HasChildren(old(nodes), p) &&
                         nodes == old(nodes) - {p})
      ensures r.Err? ==> nodes == old(nodes)
      ensures r == Err(NoNode) ==> p !in old(nodes)
      ensures r == Err(NotEmpty) ==> HasChildren(old(nodes), p)
      ensures r.Err? ==> r.error in {BadArguments, ConnectionLoss, NoNode, NotEmpty}
      ensures ValidPath(p) && p != "/" && p !in old(nodes) ==> r == Err(NoNode) || r == Err(ConnectionLoss)
      ensures ValidPath(p) && p != "/" ==> (r == Err(ConnectionLoss) <==> FaultNext(old(faults)))
      ensures ValidPath(p) && p != "/" && !FaultNext(old(faults)) && p in old(nodes) ==>
        (r.Ok? <==> !HasChildren(old(nodes), p))
      ensures faults == if ValidPath(p) && p != "/" then Rest(old(faults)) else old(faults)
      ensures r != Err(ConnectionLoss) ==> Absorbed(old(faults), faults)
      ensures watches == if r.Ok? then old(watches) - {p, Parent(p)} else old(watches)
      ensures zxid == old(zxid) && contenders == old(contenders)
    {
      if !ValidPath(p) || p == "/" {
        return Err(BadArguments);
      }
      var fail := NextFault();
      if fail {
        return Err(ConnectionLoss);
      }
      if p !in nodes {
        return Err(NoNode);
      }
      if HasChildren(nodes, p) {
        return Err(NotEmpty);
      }
      nodes := nodes - {p};
      watches := watches - {p, Parent(p)};
      r := Ok(());
    }

    /** `getChildren(path, true)`: the names of the children of an existing node, each
        once, and a children watch armed on it. */
    method GetChildren(p: string) returns (r: Result<seq<string>, KeeperError>)
      requires Valid()
      modifies this`faults, this`watches
      ensures Valid()
      ensures r == Err(BadArguments) <==> !ValidPath(p)
      ensures r.Ok? ==> (p in nodes && |r.value| == |ChildNames(nodes, p)| &&
                         (forall c :: c in r.value <==> c in ChildNames(nodes, p)))
      ensures r == Err(NoNode) ==> p !in nodes
      ensures r.Err? ==> r.error in {BadArguments, ConnectionLoss, NoNode}
      ensures ValidPath(p) && p !in nodes ==> r == Err(NoNode) || r == Err(ConnectionLoss)
      ensures watches == if r.Ok? then old(watches) + {p} else old(watches)
      ensures ValidPath(p) ==> (r == Err(ConnectionLoss) <==> FaultNext(old(faults)))
      ensures faults == if ValidPath(p) then Rest(old(faults)) else old(faults)
      ensures r != Err(ConnectionLoss) ==> Absorbed(old(faults), faults)
    {
      if !ValidPath(p) {
        return Err(BadArguments);
      }
      var fail := NextFault();
      if fail {
        return Err(ConnectionLoss);
      }
      if p !in nodes {
        return Err(NoNode);
      }
      var names := Enumerate(ChildNames(nodes, p));
      watches := watches + {p};
      r := Ok(names);
    }
  }

}

=== FILE: urls.dfy ===
/**
 * The parts of dubbo's URL class and constants that the registry relies on.
 *
 * URL parsing and printing (`URL.valueOf`, `toFullString`), the path-segment codec
 * (`URL.encode`, `URL.decode`), the service-name accessor and `UrlUtils.isMatch` are not
 * part of this model: they are carried, uninterpreted, as function values in a `UrlLib`.
 * What the registry does with a URL besides that (read a boolean parameter, copy it with
 * another path, protocol or extra parameters) is written out on a plain record.
 */
module Urls {

  /** A service descriptor: protocol, address, path and query parameters. */
  datatype Url = Url(protocol: string, address: string, path: string, parameters: map<string, string>)

  /** The foreign URL helpers, left uninterpreted. */
  datatype UrlLib = UrlLib(
    encode: string -> string,         // URL.encode
    decode: string -> string,         // URL.decode
    valueOf: string -> Url,           // URL.valueOf
    fullString: Url -> string,        // URL#toFullString
    serviceName: Url -> string,       // URL#getServiceName
    isMatch: (Url, Url) -> bool)      // UrlUtils.isMatch(consumer, provider)

  // Constants of com.alibaba.dubbo.common.Constants used by the registry.
  const AnyValue := "*"
  const RouteProtocol := "route"
  const EmptyProtocol := "empty"
  const InterfaceKey := "interface"
  const CheckKey := "check"
  const RegisterKey := "register"
  const AdminKey := "admin"

  /** ASCII lower case, as `equalsIgnoreCase` compares letters. */
  function Lower(c: char): char
  {
    if 'A' <= c <= 'Z' then (c - 'A' + 'a') as char else c
  }

  /** `Boolean.parseBoolean`: true exactly for "true" in any letter case. */
  predicate ParseBoolean(s: string)
  {
    |s| == 4 && Lower(s[0]) == 't' && Lower(s[1]) == 'r' && Lower(s[2]) == 'u' && Lower(s[3]) == 'e'
  }

  /** `URL#getParameter(key, defaultValue)` for a boolean parameter: a missing or empty
      value yields the default, any other value is parsed. */
  function BoolParameter(u: Url, key: string, default: bool): (b: bool)
    ensures key !in u.parameters ==> b == default
    ensures key in u.parameters && u.parameters[key] == "true" ==> b
    ensures key in u.parameters && u.parameters[key] == "false" ==> !b
  {
    if key !in u.parameters || u.parameters[key] == "" then default
    else ParseBoolean(u.parameters[key])
  }

  function SetPath(u: Url, path: string): Url
  {
    u.(path := path)
  }

  function SetProtocol(u: Url, protocol: string): Url
  {
    u.(protocol := protocol)
  }

  function AddParameters(u: Url, extra: map<string, string>): Url
  {
    u.(parameters := u.parameters + extra)
  }

  /**
   * The subscription the wildcard mechanism derives for one discovered service:
   * `url.setPath(service).addParameters(interface, service, check, false, register, false)`.
   * It names the service, never checks availability and never registers itself.
   */
  function DiscoveredUrl(u: Url, service: string): (d: Url)
    ensures d.path == service && d.protocol == u.protocol && d.address == u.address
    ensures InterfaceKey in d.parameters && d.parameters[InterfaceKey] == service
    ensures !BoolParameter(d, CheckKey, true) && !BoolParameter(d, RegisterKey, true)
    ensures forall k :: k in u.parameters && k !in {InterfaceKey, CheckKey, RegisterKey} ==>
      k in d.parameters && d.parameters[k] == u.parameters[k]
  {
    AddParameters(SetPath(u, service),
      map[InterfaceKey := service, CheckKey := "false", RegisterKey := "false"])
  }

}
